=== FILE: README.md ===
# flux-context-api: a verified model of the orchestration core

This project models the layer of the flux-context-api image service that
sits between the HTTP routes and the generative model. That layer does the following:

- **Admission control.** A per-client sliding-window rate limiter, a request-size guard, the bearer-token user id and the model-loaded gate.
- **Validation.** The request schemas and the service's own parameter check.
- **Input handling.** The data-URL and base64 decoding pipeline, size parsing and checking, and the aspect-preserving resize.
- **The model manager.** Its lazy load state, the seed policy and the three model operations.
- **The fan-out loops.** These turn one request into `n` model calls, call `i` seeded with `seed + i`.
- **Response assembly.** Each image becomes a stored-file URL or inline base64.
- **Errors.** The error taxonomy and its two JSON handlers.

The model is written in the functional style: immutable datatypes and pure functions.

- **The model manager is state passed in and out.** It is explicit state (`FluxModel.Manager`) threaded through the operations.
- **Model operations return a trace.** Each one returns a `FluxModel.Run`: the manager afterwards, the list of pipeline calls made, and the value or the error. A statement like "no model call happens" is written `r.calls == []`.
- **The limiter's map is passed in and out too.** Its step function returns the new limiter together with the outcome.
- **Outside collaborators are function-typed parameters.** The model is a `Backend`: what a load attempt does, plus a function from a call's arguments to the images it returns. The image codec is an `Imaging.Codec`: base64 decoding, image opening, the integrity check of an opened image, thumbnail, resampling, file storage and PNG encoding.
- **The clock is a parameter.**
- **A raised exception is a `Failure` value.** Its type is `Exceptions.Error`: one of the six API exception classes, a plain HTTP exception, or any other exception.

Modules follow the source files:

| module | file |
|---|---|
| `Exceptions` | `exceptions.dfy` |
| `ImageUtils` | `image_utils.dfy` |
| `ResponseUtils` | `response_utils.dfy` |
| `Schemas` | `schemas.dfy` |
| `FluxModel` | `flux_model.dfy` |
| `ImageService` | `image_service.dfy` |
| `Dependencies` | `dependencies.dfy` |

Four helper modules support them:

- `Results`: option and result values.
- `Text`: the Python string operations the code relies on, including `int()` and `str()` of an integer.
- `Config`: the settings and their shipped values.
- `Imaging`: the image record, the codec signatures and data-URL stripping.

## Model

| member | source | states |
|---|---|---|
| Exceptions.StatusOf | app/core/exceptions.py:17-56 | Every class's status lies in 400..599. It is exactly 500 for the two server-side classes (model load, generation) and 4xx for the four client-fixable ones. |
| Exceptions.ClassOfCode | app/core/exceptions.py:17-56 | The six error codes identify the six classes one-to-one. |
| Exceptions.RaiseClassRoundTrip | app/core/exceptions.py:9-56 | An exception raised as class k is recognised as k and as no other class. |
| Exceptions.ApiExceptionHandler | app/core/exceptions.py:59-72 | The response carries the exception's status. The body holds the detail as message, the error code as type, with "api_error" for a missing or empty code (Python's `or`), and the status as code. |
| Exceptions.EmptyCodeFallsBack | app/core/exceptions.py:68 | An exception with an empty error code gets the same response as one with none, whose type is "api_error". |
| Exceptions.ApiHandlerIdentifiesClass | app/core/exceptions.py:59-72 | For class k, the body's status and code are k's status, and k is recovered from the body's type. |
| Exceptions.GeneralExceptionHandler | app/core/exceptions.py:75-88 | Always 500, "Internal server error", "internal_error". |
| Exceptions.GeneralHandlerIgnoresException | app/core/exceptions.py:75-88 | The general handler's response is the same for every exception. |
| Imaging.StripDataUrl | app/utils/image_utils.py:15-17 | Without the "data:image" prefix the payload is unchanged. With it, the call fails iff there is no comma. Otherwise the payload is the comma-free text after the first comma, up to the next comma. |
| Imaging.StripDataUrlPiece | app/utils/image_utils.py:16-17 | `split(',')` has a second piece iff the text has a comma. That piece is the text after the first comma, up to the next comma or the end. |
| Imaging.ToRgb | app/models/flux_model.py:146-148 | Conversion keeps the size and yields RGB mode. An image already in RGB is returned unchanged. |
| ImageUtils.DecodeBase64Image | app/utils/image_utils.py:12-38 | Only InvalidImageFormat or ImageTooLarge come out, and ImageTooLarge iff the decoded length exceeds the maximum. Success iff the bytes decode, are within the maximum, open as an image, and the lower-cased format is jpeg, jpg, png or webp. The opened image is returned. |
| ImageUtils.OversizedPayloadNeverParsed | app/utils/image_utils.py:20-27 | An over-size payload gets the same result whatever the image opener does: it is refused before parsing. |
| ImageUtils.ValidateImageSize | app/utils/image_utils.py:118-130 | Passes iff both sides lie in [min, max]. Otherwise it fails with InvalidImageFormat, and a side below the minimum is reported as too small before any too-large check. |
| ImageUtils.ParseImageSize | app/utils/image_utils.py:133-153 | Every failure is InvalidImageFormat, with the prefix "Invalid image size format '<s>': ". A success is in range, `s` has exactly one 'x', and the two sides read back as the width and height. |
| ImageUtils.ParseImageSizeAccepts | app/utils/image_utils.py:133-150 | For `a + "x" + b` with `int()`-readable sides: success iff both values are in range, and then exactly those values. |
| ImageUtils.ParseFormatDimsRoundTrip | app/utils/image_utils.py:133-150 | Parsing the "WxH" text of an in-range size gives that size back. |
| ImageUtils.UpperCaseSeparatorRejected | app/utils/image_utils.py:136-137 | "1024X1024" is refused. |
| ImageUtils.DefaultBoundsRejectSmall | app/utils/image_utils.py:143-144 | With the shipped bounds, "100x100" is refused. |
| ImageUtils.DefaultBoundsAcceptSquare | app/utils/image_utils.py:133-150 | With the shipped bounds, "1024x1024" parses to 1024 by 1024. |
| ImageUtils.PasteOffset | app/utils/image_utils.py:104-106 | For an inner side no longer than the outer one: the offset is non-negative, the inner side fits, and the two margins differ by at most one. |
| ImageUtils.ResizeImage | app/utils/image_utils.py:94-115 | Failures are ImageProcessingError. With the aspect kept, the call succeeds iff the thumbnail does, the result has exactly the target size, and a thumbnail of another size is pasted centred on a white RGB canvas. Without the aspect kept, it resamples directly. |
| ImageUtils.ResizePadsWithinCanvas | app/utils/image_utils.py:97-107 | For a thumbnailer that keeps PIL's promise (the result fits the target and never grows), a thumbnail that misses the target is padded onto a canvas of exactly the target size, wholly inside it. |
| ImageUtils.PaddedThumbnailFits | app/utils/image_utils.py:97-109 | A thumbnail within the target and not equal to it is pasted wholly inside the canvas. |
| ImageUtils.CreateImageUrl | app/utils/image_utils.py:156-164 | The URL is base + "/static/" + path with every backslash replaced by '/', and contains no backslash. |
| Schemas.ParseResponseFormat | app/models/schemas.py:9-12 | Only "url" and "b64_json" are accepted, and each reads back to its own wire value. |
| Schemas.ResponseFormatRoundTrip | app/models/schemas.py:9-12 | Reading a format's wire value gives the format back. |
| Schemas.BaseErrors | app/models/schemas.py:24-30 | A field is named iff it breaks its constraint: prompt length 1..4000, n in 1..10, format one of the two values. |
| Schemas.TuningErrors | app/models/schemas.py:33-37 | guidance_scale is named iff outside [1.0, 10.0]. num_inference_steps is named iff outside [1, 50]. |
| Schemas.ValidateGenerationRequest | app/models/schemas.py:24-37 | Accepted iff no field breaks a constraint. The accepted request carries the given values or the defaults; otherwise the offending fields are listed. |
| Schemas.GenerationDefaults | app/models/schemas.py:26-37 | A body with only a prompt gets n 1, size "1024x1024", url format, guidance 2.5, 28 steps and no seed. |
| Schemas.ValidateImageField | app/models/schemas.py:47-64 | Accepted iff the stripped payload decodes, opens as an image, and that image passes the integrity check (`verify`). The stripped payload is kept. Every failure has the one message "Invalid base64 image format". |
| Schemas.ValidateEditRequest | app/models/schemas.py:40-64 | Accepted iff the shared fields, the image (decoded, opened and verified) and the tuning fields all pass. The accepted image is the stripped payload. |
| Schemas.ValidateVariationRequest | app/models/schemas.py:67-88 | As for edits, including the image's decode, open and verify steps, and in addition variation_strength must lie in [0.1, 1.0] (default 0.7). |
| ResponseUtils.RevisedPromptAt | app/utils/response_utils.py:35-36 | Entry i gets a revised prompt iff the list is non-empty and has an i-th element, and it is that element. |
| ResponseUtils.Entries | app/utils/response_utils.py:22-38 | Succeeds iff every image's entry does. Entries are index-aligned with the images. A failure is the error of some image's entry. |
| ResponseUtils.CreateImageResponse | app/utils/response_utils.py:12-47 | One entry per image, in order. URL entries have a url and no base64, and base64 entries the reverse. It succeeds iff every store or encode succeeds, and failures are ImageProcessingError. |
| ResponseUtils.CreateSingleImageResponse | app/utils/response_utils.py:50-58 | One entry, which carries the revised prompt only when that prompt is a non-empty string. It succeeds iff storing or encoding the image does, and failures are ImageProcessingError. |
| ResponseUtils.CreateBatchResponse | app/utils/response_utils.py:136-146 | One response per batch, in order, each with as many entries as its batch and the time batch i reads as its created stamp. It succeeds iff every batch does. |
| ResponseUtils.ValidateGenerationParams | app/utils/response_utils.py:72-87 | Passes iff guidance is in [1.0, 10.0], steps in [1, max steps] and n in [1, max batch]. Failures are InvalidParameters, checked in that order, naming the first offender: the guidance message, "num_inference_steps must be between 1 and <max>, got <steps>", or "n must be between 1 and <max>, got <n>". |
| ResponseUtils.SchemaCountAboveServiceCeiling | app/utils/response_utils.py:86-87 | n = 5 passes the schema's bound of 10 but fails the service's default ceiling of 4. |
| ResponseUtils.ReplaceUnsafe | app/utils/response_utils.py:128 | Same length. Each unsafe character becomes '_' and every other character is kept. |
| ResponseUtils.SplitExtension | app/utils/response_utils.py:131 | The extension has no '.'. With a '.', name + "." + ext is the original, split at the last '.'. |
| ResponseUtils.SanitizeFilename | app/utils/response_utils.py:124-133 | The result has no unsafe character, and a name of at most 100 characters keeps its length. Longer names become the first 95 characters of the stem plus "." + the extension when there is one, with the resulting length given exactly. |
| ResponseUtils.LongExtensionKeepsLength | app/utils/response_utils.py:130-133 | A 101-character name with a 99-character extension comes back 101 characters long. |
| ResponseUtils.GetBaseUrlFromRequest | app/utils/response_utils.py:113-121 | "https://" + host iff the scheme is "https", otherwise "http://" + host. The host is the Host header, else the URL's netloc. The result is "" when the request cannot be read. |
| ResponseUtils.FormatErrorResponse | app/utils/response_utils.py:61-69 | The message is kept. An omitted type is "api_error" and an omitted code is 400; a passed type or code is kept as it is, even an empty type. |
| ResponseUtils.DefaultsMatchPlainApiError | app/utils/response_utils.py:61 | With both defaults the helper builds the body the API handler gives a plain 400 exception with no error code. An explicit empty type stays empty in the helper, where the handler falls back to "api_error". |
| ResponseUtils.FormatErrorMatchesHandler | app/utils/response_utils.py:61-69 | For a class's detail, code and status, the helper builds the same body as the API handler. |
| FluxModel.LoadPipeline | app/models/flux_model.py:41-71 | Passes iff the attempt loads. Success raises the flag with the loaded pipeline. Failure raises ModelLoadError "Failed to load model: ..." and leaves the flag down, so a consistent unloaded manager stays unloaded. |
| FluxModel.EnsureModelLoaded | app/models/flux_model.py:34-39 | An already-loaded manager is left untouched and no attempt is consulted. The call passes iff loaded or the attempt loads, and afterwards the manager is loaded iff the call passed. |
| FluxModel.LoadModel | app/models/flux_model.py:85-92 | It performs no load when already loaded. It passes iff loaded or the attempt loads, and then leaves the manager loaded. |
| FluxModel.EnsureIdempotent | app/models/flux_model.py:34-39 | After one successful call, later calls (either entry point) change nothing. |
| FluxModel.FailedLoadIsRetried | app/models/flux_model.py:41-76 | A failed load leaves the manager unloaded and consistent, and a later successful attempt then loads it. |
| FluxModel.GetPipeline | app/models/flux_model.py:78-83 | It returns the pipeline iff loaded, and otherwise raises ModelLoadError "Model not loaded". |
| FluxModel.SafeSeed | app/models/flux_model.py:109-114 | The result lies in [0, 2^32) and is congruent to abs(seed) modulo 2^32, which fixes it for every seed. It is the seed itself for seeds in that range, and its negation for small negative seeds. |
| FluxModel.SafeSeedPeriodic | app/models/flux_model.py:112 | Seeds 2^32 apart give the same generator seed: the reduction wraps around. |
| FluxModel.SeedWrapCollision | app/models/flux_model.py:109-114 | The requested seeds 2^32 and 0 give the same generator seed. |
| FluxModel.SafeSeedIgnoresSign | app/models/flux_model.py:112 | A seed and its negation give the same generator seed. |
| FluxModel.GeneratorSeed | app/models/flux_model.py:109-114 | No generator without a seed. Otherwise the generator seed is abs(seed) mod 2^32. |
| FluxModel.SubSeed | app/models/flux_model.py:199 | Sub-invocation i gets seed + i, or no seed when there is none. |
| FluxModel.SubSeedsDistinct | app/models/flux_model.py:199-205 | Distinct sub-invocations get distinct generator seeds while the raw seeds stay in [0, 2^32). Outside that range they can collide: a negative base folds at zero (SubSeedsFoldAtZero), and a raw seed reaching 2^32 wraps (SubSeedsWrap). |
| FluxModel.SubSeedsFoldAtZero | app/models/flux_model.py:112 | For base seed -k, sub-invocations i and j with i + j = 2k get the same generator seed, because abs folds seed + i and seed + j onto one value. |
| FluxModel.NegativeSeedRepeats | app/services/image_service.py:216 | Seed -1 with three images gives generator seeds 1, 0 and 1, so images 0 and 2 are seeded alike. |
| FluxModel.SubSeedsWrap | app/models/flux_model.py:199-205 | A sub-invocation whose raw seed seed + i reaches 2^32 gets the generator seed of a request seeded with 0. |
| FluxModel.FirstImage | app/models/flux_model.py:127 | `images[0]` exists iff the call succeeded with a non-empty list. |
| FluxModel.Outputs | app/models/flux_model.py:127 | For calls that all yield images, the list has one image per call and entry i is the first image of call i. |
| FluxModel.EditCall | app/models/flux_model.py:146-168 | An edit passes the RGB-converted input at the input's own width and height. |
| FluxModel.VariationPrompt | app/models/flux_model.py:208 | The framed prompt is "Based on this image, " + prompt + ". Keep the main subject but add variations.", with the prompt at a fixed position. |
| FluxModel.VariationPromptInjective | app/models/flux_model.py:208 | Different prompts give different framed prompts. |
| FluxModel.VariationCall | app/models/flux_model.py:191-220 | A variation passes the RGB input at its own size, the framed prompt, and the generator for its seed. |
| FluxModel.GenerateImage | app/models/flux_model.py:94-131 | One call with no input image at the requested size, made iff the model is or becomes loaded. Success iff that call yields an image, which is returned. A failed load is returned as it is. A failed call gives GenerationError "Generation failed: " followed by that call's error text. |
| FluxModel.EditImage | app/models/flux_model.py:133-174 | One edit call on the RGB input at its own size, made iff loaded. Success iff it yields an image. A failed load is returned as it is. A failed call gives GenerationError "Editing failed: " followed by that call's error text. |
| FluxModel.GenerateVariations | app/models/flux_model.py:176-228 | Load first. Call i uses the framed prompt and seed + i. Success iff loaded and all num_images calls yield images, and then there are exactly num_images images, image i from call i. A failed load is returned as it is, with no call made. Otherwise the calls stop at the first that yields no image: all calls before it succeeded, and the error is GenerationError "Variation generation failed: " followed by that call's error text, with no images. |
| ImageService.GenerateMultipleImages | app/services/image_service.py:202-234 | Call i is a generation at the given size seeded with seed + i. Success iff every call yields an image (or none is asked for). Then there are exactly num_images images, entry i from call i. A failed load is returned as it is, with no call made. Otherwise the calls stop at the first that yields no image, all calls before it succeeded, and the error is GenerationError "Generation failed: " followed by that call's error text. |
| ImageService.EditMultipleImages | app/services/image_service.py:236-266 | Every call edits the same RGB input at its size, call i seeded with seed + i. Success iff every call yields an image, and gives exactly num_images images, entry i from call i. A failed load is returned as it is. Otherwise the calls stop at the first failure, whose error text follows "Editing failed: ". |
| ImageService.GenerateImageVariations | app/services/image_service.py:268-304 | One variation per prompt, in prompt order, call i with prompt i and seed + i. Success iff every call yields an image, and gives one image per prompt, entry i from call i. A failed load is returned as it is. Otherwise the calls stop at the first failure, and the error is GenerationError "Variation generation failed: " followed by that call's error text. |
| ImageService.Wrap | app/services/image_service.py:86-88 | Every service failure is a 500 GenerationError whose detail is the prefix followed by the original error's text. |
| ImageService.WrapHidesClass | app/services/image_service.py:86-88 | A validation or format error leaves the service as status 500 and is of no class but GenerationError. Its original status and detail survive only in the text. |
| ImageService.ParseSizeField | app/services/image_service.py:60 | A present size is parsed as usual. An absent one fails as InvalidImageFormat. |
| ImageService.PrepareInput | app/services/image_service.py:109-117 | Success iff decoding, the size check and (when a size is requested) parsing succeed, and a thumbnail is made only when the sizes differ. Without a requested size the decoded image is kept. With one, the result has exactly that size, and it is the decoded image when that already had it. |
| ImageService.GenerateImages | app/services/image_service.py:40-88 | A request failing parameter validation or size parsing makes no model call and leaves the manager as it was. Call i is a generation at the parsed size seeded with seed + i. Success iff the request is accepted, the model is or becomes loaded, and all n images are produced and delivered; then there are n entries and entry i is the URL of the stored file (url format) or the base64 text (b64_json format) of the image from call i, with the other field empty. Every failure is GenerationError "Failed to generate images: ...". |
| ImageService.EditImage | app/services/image_service.py:90-144 | The same shape over the prepared input: a rejected request or unusable image makes no call, call i edits the prepared image with seed + i, and success gives n entries, entry i the stored-file URL or base64 text of the image from call i. Every failure is GenerationError "Failed to edit image: ...". |
| ImageService.GenerateVariations | app/services/image_service.py:146-200 | n is still validated. A rejected request makes no call. Call i is the variation for prompt i with seed + i, and success gives one entry per prompt, entry i the stored-file URL or base64 text of the image from call i. Every failure is GenerationError "Failed to generate variations: ...". |
| ImageService.GenerateVariationsAsWritten | app/services/image_service.py:176-183 | The method as written never succeeds and never calls the model. Every accepted request fails on the missing prompts attribute. |
| Dependencies.GetCurrentUser | app/api/dependencies.py:16-22 | None iff no credentials. Otherwise the user id is a prefix of the token of length min(20, token length). |
| Dependencies.VerifyModelLoaded | app/api/dependencies.py:25-30 | Passes iff the manager is loaded. Otherwise it raises ModelLoadError "Model is not loaded. Please wait for model initialization.". |
| Dependencies.Prune | app/api/dependencies.py:83-87 | An entry is kept iff now - timestamp < window (strict). |
| Dependencies.PruneFilters | app/api/dependencies.py:83-87 | The pruned list is a filter of the stored one. Each in-window entry keeps its multiplicity, every other entry is gone, and the survivors keep their order. |
| Dependencies.CheckRateLimit | app/api/dependencies.py:75-104 | Rejects with 429 and the limit message iff the pruned count is at least the maximum, storing only the pruned list. Otherwise it appends exactly (now, 1), raising the count by one. Every other client's record is unchanged. |
| Dependencies.CheckKeepsBounded | app/api/dependencies.py:93-102 | Whatever the timestamps, after a check every client's record has unit entries and no more entries than the maximum. |
| Dependencies.BurstAdmitsUpToLimit | app/api/dependencies.py:75-104 | Of k same-instant checks from a new client, check i is admitted iff i < maximum, and the record then holds min(k, maximum) entries. |
| Dependencies.DefaultLimiterBurst | app/api/dependencies.py:107-108 | With the shipped limiter, 100 same-instant requests are admitted and the 101st is refused with 429. |
| Dependencies.DefaultLimiterWindowExpiry | app/api/dependencies.py:83-108 | 3600 s after a full burst the client is admitted again, while 3599 s after it the client is still refused. |
| Dependencies.ValidateRequestSize | app/api/dependencies.py:116-130 | An absent or empty header passes, and an unreadable one raises. A readable value passes iff at most 52428800; otherwise the refusal is 413 "Request too large. Maximum size is 52428800 bytes.". |
| Dependencies.RequestSizeBoundary | app/api/dependencies.py:116-130 | A header `str(n)` passes iff n ≤ 52428800. Exactly 50 MiB passes and one byte more is refused. |

## Left out

- Model internals: loading weights, device placement and inference are abstract (`FluxModel.LoadAttempt` and `FluxModel.Infer`). The code reads the device from the loaded pipeline when building a generator; that is not modelled.
- Image and base64 library work is abstract, as the functions of `Imaging.Codec`. This covers `base64.b64decode`, `Image.open`/`verify`, `thumbnail` and LANCZOS resampling, `save_image` (file naming, directories, `os.path.relpath`) and `encode_image_to_base64`.
- FluxModel.Infer: a call is a pure function of its arguments, so two equal calls give equal images. In the program a call without a seed passes no generator and draws fresh randomness, so the equal calls of a seedless fan-out give different images. Per-call randomness is not modelled.
- Imaging.Codec: `persist` is a pure function of the image, so equal images get equal paths. The program names every stored file with a fresh `uuid4().hex`, so every URL it returns is distinct. The random file names are not modelled.
- ImageUtils.DecodeBase64Image: the format name is lower-cased with ASCII rules (`Text.LowerAscii`) where Python lower-cases Unicode. Image library format names are ASCII, so the two agree.
- `get_image_info` and `cleanup_temp_files` are not modelled.
- Concurrency is not modelled: the executor of two workers, `run_in_executor`, the load lock and the singleton construction. The fan-out loops await each call before starting the next, so they are modelled as sequential loops.
- Logging and timing helpers are left out (`log_request_info`, `create_success_log`, `calculate_processing_time`). The response timestamp `int(time.time())` is the parameter `now` (one per batch in `CreateBatchResponse`), and limiter timestamps are real-valued parameters.
- Configuration values are not read from the environment. They are a `Config.Settings` parameter, with the shipped values in `Config.Defaults`.
- HTTP plumbing is not modelled: the routers, middleware, lifespan, the health checker and model listing, `validate_content_type`, `log_request` and the `get_base_url` wrapper. The framework's own rendering of plain HTTP exceptions (429, 413) is not modelled either.
- Python floats are modelled as reals, with no NaN or infinity. `Dependencies.Prune` compares real timestamps exactly.
- ResponseUtils.ValidateGenerationParams: the guidance failure message omits the trailing ", got <value>", because Python's float formatting is not modelled. The steps and count messages are complete.
- Exceptions.Describe: `str()` of an API exception is taken to be "<status>: <detail>", as the web framework renders it. The text of library exceptions (ValueError, IndexError) is written out only where the code builds it.
- Text.ParseInt: Python's `int()` is modelled for ASCII text. Non-ASCII digits and white space are treated as unreadable.
- Imaging.ToRgb: conversion is taken never to fail. A conversion error inside the model call's `try` is therefore not a separate path.
- Schemas: request bodies are already typed. Pydantic's coercions (a numeric string for `n`, an integer for a float) and the `user` and `seed` types are not checked.
- ImageService.GenerateVariations: the prompt list is an explicit parameter, because the request record has no such field (see Findings). The variation strength is passed through and unused, as in the code.
- Behaviour of the code that the model keeps as it is:
  - The manager has no "failed" load state. A failed load leaves it unloaded, and the next call retries.
  - The request count `n` defaults to 1.
  - The accepted image formats include `jpg` besides `jpeg`, `png` and `webp`.
  - Sub-invocations run one after another, each after the previous one returned.
  - Sub-invocation i is seeded with seed + i and the generator with abs(seed + i) mod 2^32. A negative base seed therefore repeats generator seeds within one request (seed -1 with three images gives 1, 0, 1), far from the wrap-around at 2^32.
  - An unloaded model surfaces as ModelLoadError (500). Inside the service it is wrapped as GenerationError like any other failure.

## Findings

| source | as written | input that shows it | evidently intended | confidence | as-written member | corrected member |
|---|---|---|---|---|---|---|
| app/services/image_service.py:178 | `generate_variations` passes `request.prompts` to the fan-out, but `ImageVariationRequest` declares no `prompts` field (app/models/schemas.py:67-73). Reading it raises AttributeError, which is wrapped as GenerationError. | Any variation request that passes validation and whose image decodes, e.g. prompt "a cat", n 1, a valid PNG. | One variation per prompt of a prompt list carried by the request. | not executed | ImageService.GenerateVariationsAsWritten | ImageService.GenerateVariations |

=== FILE: config.dfy ===
/** The configuration values the core reads, supplied as one record so that
    every operation can be stated for any configuration and for the shipped
    defaults. */
module Config {

  datatype Settings = Settings(
    minImageSize: nat,          // smallest accepted width or height, inclusive
    maxImageSize: nat,          // largest accepted width or height, inclusive
    maxBatchSize: nat,          // largest `n` the service accepts
    maxNumInferenceSteps: nat,  // largest step count the service accepts
    maxFileSize: nat            // largest decoded image payload, in bytes
  )

  /** The values the application ships with (10 MiB file ceiling). */
  const Defaults := Settings(256, 2048, 4, 50, 10 * 1024 * 1024)
}

=== FILE: dependencies.dfy ===
/** Admission control run before a request reaches the service: the
    per-client sliding-window rate limiter, the request-size guard, the
    bearer-token user id and the model-loaded gate. The limiter's map is
    explicit state threaded through a step function; the clock and the
    client address are parameters. */
module Dependencies {
  import opened Results
  import opened Text
  import opened Exceptions
  import FluxModel

  // ---------------------------------------------------------------------------
  // get_current_user / verify_model_loaded
  // ---------------------------------------------------------------------------

  const UserIdLength: nat := 20

  /** The user id: the first 20 characters of the bearer token, none
      without credentials. */
  function GetCurrentUser(token: Option<string>): (r: Option<string>)
    ensures r.None? <==> token.None?
    ensures r.Some? ==> StartsWith(token.value, r.value)
    ensures r.Some? ==> |r.value| == if |token.value| < UserIdLength then |token.value| else UserIdLength
  {
    match token
    case None => None
    case Some(t) => Some(Take(t, UserIdLength))
  }

  const NotLoadedMessage := "Model is not loaded. Please wait for model initialization."

  /** The model-loaded gate: passes iff the manager is loaded. */
  function VerifyModelLoaded(m: FluxModel.Manager): (r: Outcome<Error>)
    ensures r.Pass? <==> m.IsLoaded()
    ensures r.Fail? ==> r.error == Raise(ModelLoadError, NotLoadedMessage)
  {
    if !m.IsLoaded() then Fail(Raise(ModelLoadError, NotLoadedMessage)) else Pass
  }

  // ---------------------------------------------------------------------------
  // RateLimiter
  // ---------------------------------------------------------------------------

  /** One recorded request: when it arrived and how many it counts for. */
  datatype Entry = Entry(timestamp: real, count: int)

  /** The limiter: its two settings and the recorded requests per client. */
  datatype RateLimiter = RateLimiter(maxRequests: int, windowSeconds: int, requests: map<string, seq<Entry>>)

  /** The module-level instance: 100 requests per hour. */
  const DefaultLimiter := RateLimiter(100, 3600, map[])

  /** The client key: the peer address, or `"unknown"` without one. */
  function ClientKey(host: Option<string>): string {
    host.GetOr("unknown")
  }

  /** The entry is still inside the window at time `now` (strictly). */
  predicate InWindow(e: Entry, now: real, window: int) {
    now - e.timestamp < window as real
  }

  /** `a` is `b` with some elements left out, the rest in their order. */
  predicate Subsequence<T(==)>(a: seq<T>, b: seq<T>)
    decreases |b|
  {
    if a == [] then true
    else if b == [] then false
    else (a[0] == b[0] && Subsequence(a[1..], b[1..])) || Subsequence(a, b[1..])
  }

  /** Drops the entries that have left the window, keeping the order of the
      rest (see `PruneFilters`). */
  function Prune(entries: seq<Entry>, now: real, window: int): (kept: seq<Entry>)
    ensures |kept| <= |entries|
    ensures forall i :: 0 <= i < |kept| ==> kept[i] in entries && InWindow(kept[i], now, window)
    ensures forall e :: e in entries && InWindow(e, now, window) ==> e in kept
  {
    if entries == [] then []
    else
      var rest := Prune(entries[1..], now, window);
      if InWindow(entries[0], now, window) then [entries[0]] + rest else rest
  }

  /** Pruning is a filter: every in-window entry stays as often as it was
      recorded (so the total is not undercounted), nothing else remains, and
      the survivors keep their order. */
  lemma {:induction false} PruneFilters(entries: seq<Entry>, now: real, window: int)
    ensures var kept := Prune(entries, now, window);
      && (forall e :: multiset(kept)[e] == if InWindow(e, now, window) then multiset(entries)[e] else 0)
      && Subsequence(kept, entries)
  {
    if entries != [] {
      var rest := Prune(entries[1..], now, window);
      PruneFilters(entries[1..], now, window);
      assert entries == [entries[0]] + entries[1..];
      if InWindow(entries[0], now, window) {
        assert ([entries[0]] + rest)[1..] == rest;
      }
    }
  }

  /** The number of requests the entries stand for. */
  function Total(entries: seq<Entry>): int {
    if entries == [] then 0 else entries[0].count + Total(entries[1..])
  }

  lemma {:induction false} TotalAppend(entries: seq<Entry>, e: Entry)
    ensures Total(entries + [e]) == Total(entries) + e.count
  {
    if entries != [] {
      assert (entries + [e])[1..] == entries[1..] + [e];
      TotalAppend(entries[1..], e);
    }
  }

  /** Every entry counts for one request, as the limiter records them. */
  predicate Unit(entries: seq<Entry>) {
    forall i :: 0 <= i < |entries| ==> entries[i].count == 1
  }

  lemma {:induction false} TotalOfUnits(entries: seq<Entry>)
    requires Unit(entries)
    ensures Total(entries) == |entries|
  {
    if entries != [] {
      TotalOfUnits(entries[1..]);
    }
  }

  /** The entries stored for `key`, none when the key is absent. */
  function Stored(l: RateLimiter, key: string): seq<Entry> {
    if key in l.requests then l.requests[key] else []
  }

  function LimitMessage(l: RateLimiter): string {
    "Rate limit exceeded. Maximum " + IntToString(l.maxRequests) + " requests per "
    + IntToString(l.windowSeconds) + " seconds."
  }

  /** The limiter after a check, and whether the request was admitted. */
  datatype Admission = Admission(limiter: RateLimiter, outcome: Outcome<Error>)

  /** `check_rate_limit`: prunes the caller's entries, rejects with 429 when
      the remaining ones already count `maxRequests` or more (storing the
      pruned list and nothing else), and otherwise records `(now, 1)`. */
  function CheckRateLimit(l: RateLimiter, host: Option<string>, now: real): (r: Admission)
    ensures r.limiter.maxRequests == l.maxRequests && r.limiter.windowSeconds == l.windowSeconds
    ensures var key := ClientKey(host);
      var kept := Prune(Stored(l, key), now, l.windowSeconds);
      && key in r.limiter.requests
      && (r.outcome.Fail? <==> Total(kept) >= l.maxRequests)
      && (r.outcome.Fail? ==> r.outcome.error == Http(429, LimitMessage(l)) && r.limiter.requests[key] == kept)
      && (r.outcome.Pass? ==>
            && r.limiter.requests[key] == kept + [Entry(now, 1)]
            && Total(r.limiter.requests[key]) == Total(kept) + 1)
    ensures forall k :: k != ClientKey(host) ==> Stored(r.limiter, k) == Stored(l, k)
    ensures forall k :: k in r.limiter.requests <==> k in l.requests || k == ClientKey(host)
  {
    var key := ClientKey(host);
    var kept := Prune(Stored(l, key), now, l.windowSeconds);
    if Total(kept) >= l.maxRequests then
      Admission(l.(requests := l.requests[key := kept]), Fail(Http(429, LimitMessage(l))))
    else
      TotalAppend(kept, Entry(now, 1));
      Admission(l.(requests := l.requests[key := kept + [Entry(now, 1)]]), Pass)
  }

  /** Every client's record consists of unit entries, no more than the limit. */
  predicate Bounded(l: RateLimiter) {
    forall k :: k in l.requests ==> Unit(l.requests[k]) && |l.requests[k]| <= l.maxRequests
  }

  /** Whatever the timestamps, a check keeps every client's record within
      the limit. */
  lemma CheckKeepsBounded(l: RateLimiter, host: Option<string>, now: real)
    requires 0 <= l.maxRequests && Bounded(l)
    ensures Bounded(CheckRateLimit(l, host, now).limiter)
  {
    var key := ClientKey(host);
    var stored := Stored(l, key);
    var kept := Prune(stored, now, l.windowSeconds);
    assert Unit(kept) by {
      forall i | 0 <= i < |kept| ensures kept[i].count == 1 {
        assert kept[i] in stored;
      }
    }
    TotalOfUnits(kept);
    var r := CheckRateLimit(l, host, now);
    assert Unit(r.limiter.requests[key]);
  }

  // ---------------------------------------------------------------------------
  // Bursts
  // ---------------------------------------------------------------------------

  /** `k` checks from the same client at the same instant: the final
      limiter and each check's outcome in order. */
  function Burst(l: RateLimiter, host: Option<string>, now: real, k: nat): (r: (RateLimiter, seq<Outcome<Error>>))
    ensures |r.1| == k
  {
    if k == 0 then (l, [])
    else
      var prior := Burst(l, host, now, k - 1);
      var a := CheckRateLimit(prior.0, host, now);
      (a.limiter, prior.1 + [a.outcome])
  }

  /** `k` entries recorded at `now`. */
  function Recorded(now: real, k: nat): seq<Entry> {
    seq(k, _ => Entry(now, 1))
  }

  /** Entries recorded at `now` are all still in the window `delta` seconds later. */
  lemma {:induction false} PruneLater(now: real, k: nat, delta: real, window: int)
    requires 0.0 <= delta < window as real
    ensures Prune(Recorded(now, k), now + delta, window) == Recorded(now, k)
  {
    if k > 0 {
      assert Recorded(now, k)[1..] == Recorded(now, k - 1);
      PruneLater(now, k - 1, delta, window);
    }
  }

  /** Entries recorded at `now` have all left the window `delta` seconds
      later once `delta` reaches the window length. */
  lemma {:induction false} PruneExpired(now: real, k: nat, delta: real, window: int)
    requires delta >= window as real
    ensures Prune(Recorded(now, k), now + delta, window) == []
  {
    if k > 0 {
      assert Recorded(now, k)[1..] == Recorded(now, k - 1);
      PruneExpired(now, k - 1, delta, window);
    }
  }

  /** One more check at the instant of the `had` recorded entries: admitted
      iff `had` is below the limit, and then recorded. */
  lemma CheckAtSameInstant(l: RateLimiter, host: Option<string>, now: real, had: nat)
    requires Stored(l, ClientKey(host)) == Recorded(now, had) && l.windowSeconds > 0
    ensures var a := CheckRateLimit(l, host, now);
      && (a.outcome.Pass? <==> had < l.maxRequests)
      && Stored(a.limiter, ClientKey(host)) == Recorded(now, if had < l.maxRequests then had + 1 else had)
  {
    PruneLater(now, had, 0.0, l.windowSeconds);
    assert now + 0.0 == now;
    TotalOfUnits(Recorded(now, had));
    assert Recorded(now, had) + [Entry(now, 1)] == Recorded(now, had + 1);
  }

  /** A burst from a client with no record: exactly the first
      `maxRequests` checks are admitted, and the record holds one entry per
      admitted check. */
  lemma {:induction false} BurstAdmitsUpToLimit(l: RateLimiter, host: Option<string>, now: real, k: nat)
    requires ClientKey(host) !in l.requests && l.windowSeconds > 0 && l.maxRequests >= 0
    ensures var b := Burst(l, host, now, k);
      && (forall i :: 0 <= i < k ==> (b.1[i].Pass? <==> i < l.maxRequests))
      && Stored(b.0, ClientKey(host)) == Recorded(now, if k < l.maxRequests then k else l.maxRequests)
      && b.0.maxRequests == l.maxRequests && b.0.windowSeconds == l.windowSeconds
  {
    if k > 0 {
      BurstAdmitsUpToLimit(l, host, now, k - 1);
      var prior := Burst(l, host, now, k - 1);
      var had := if k - 1 < l.maxRequests then k - 1 else l.maxRequests;
      CheckAtSameInstant(prior.0, host, now, had);
    }
  }

  /** With the default limiter, 100 requests in the same instant are
      admitted and the 101st is refused with 429. */
  lemma DefaultLimiterBurst(host: Option<string>, now: real)
    ensures var outcomes := Burst(DefaultLimiter, host, now, 101).1;
      && (forall i :: 0 <= i < 100 ==> outcomes[i].Pass?)
      && outcomes[100] == Fail(Http(429, LimitMessage(DefaultLimiter)))
  {
    BurstAdmitsUpToLimit(DefaultLimiter, host, now, 101);
    BurstAdmitsUpToLimit(DefaultLimiter, host, now, 100);
  }

  /** Once every recorded entry is a full window old, the client is admitted
      again; one second before that it is still refused. */
  lemma DefaultLimiterWindowExpiry(host: Option<string>, now: real)
    ensures var full := Burst(DefaultLimiter, host, now, 100).0;
      && CheckRateLimit(full, host, now + 3600.0).outcome.Pass?
      && CheckRateLimit(full, host, now + 3599.0).outcome.Fail?
  {
    BurstAdmitsUpToLimit(DefaultLimiter, host, now, 100);
    PruneExpired(now, 100, 3600.0, 3600);
    PruneLater(now, 100, 3599.0, 3600);
    TotalOfUnits(Recorded(now, 100));
  }

  // ---------------------------------------------------------------------------
  // validate_request_size
  // ---------------------------------------------------------------------------

  /** 50 MiB. */
  const MaxRequestSize: nat := 50 * 1024 * 1024

  /** The request-size guard over the `content-length` header: an absent or
      empty header passes; a value `int()` cannot read raises; a value above
      50 MiB is refused with 413. */
  function ValidateRequestSize(contentLength: Option<string>): (r: Outcome<Error>)
    ensures (contentLength.None? || contentLength.value == "") ==> r.Pass?
    ensures contentLength.Some? && contentLength.value != "" ==>
      match ParseInt(contentLength.value)
      case None => r.Fail? && r.error.Unexpected?
      case Some(n) => (r.Pass? <==> n <= MaxRequestSize)
    ensures r.Fail? && !r.error.Unexpected? ==>
      r.error == Http(413, "Request too large. Maximum size is " + IntToString(MaxRequestSize) + " bytes.")
  {
    match contentLength
    case None => Pass
    case Some(v) =>
      if v == "" then Pass
      else
        match ParseInt(v)
        case None => Fail(Unexpected("invalid literal for int() with base 10: '" + v + "'"))
        case Some(n) =>
          if n > MaxRequestSize then
            Fail(Http(413, "Request too large. Maximum size is " + IntToString(MaxRequestSize) + " bytes."))
          else Pass
  }

  /** A well-formed header is admitted iff its value is at most 50 MiB;
      exactly 50 MiB is admitted and one byte more is refused. */
  lemma RequestSizeBoundary(n: int)
    ensures ValidateRequestSize(Some(IntToString(n))).Pass? <==> n <= MaxRequestSize
    ensures ValidateRequestSize(Some(IntToString(MaxRequestSize))).Pass?
    ensures ValidateRequestSize(Some(IntToString(MaxRequestSize + 1))).Fail?
  {
    IntToStringRoundTrip(n);
    IntToStringRoundTrip(MaxRequestSize);
    IntToStringRoundTrip(MaxRequestSize + 1);
  }
}

=== FILE: exceptions.dfy ===
/** The error taxonomy of the API: the six `APIException` subclasses with
    their fixed status and error code, plain HTTP exceptions raised by the
    request dependencies, and everything else; plus the two JSON handlers
    that turn an exception into the `{error: {message, type, code}}`
    envelope. */
module Exceptions {
  import opened Results
  import Text

  /** The six `APIException` subclasses. */
  datatype ErrorClass =
    | ModelLoadError
    | ImageProcessingError
    | InvalidImageFormat
    | ImageTooLarge
    | GenerationError
    | InvalidParameters
  {
    /** Errors the client can fix by changing its request. */
    predicate ClientFixable() {
      !ModelLoadError? && !GenerationError?
    }
  }

  /** The HTTP status each subclass fixes in its constructor. */
  function StatusOf(k: ErrorClass): (status: int)
    ensures 400 <= status < 600
    ensures status == 500 <==> !k.ClientFixable()
    ensures 400 <= status < 500 <==> k.ClientFixable()
  {
    match k
    case ModelLoadError => 500
    case ImageProcessingError => 400
    case InvalidImageFormat => 400
    case ImageTooLarge => 413
    case GenerationError => 500
    case InvalidParameters => 422
  }

  /** The error code each subclass fixes in its constructor. */
  function CodeOf(k: ErrorClass): string {
    match k
    case ModelLoadError => "MODEL_LOAD_ERROR"
    case ImageProcessingError => "IMAGE_PROCESSING_ERROR"
    case InvalidImageFormat => "INVALID_IMAGE_FORMAT"
    case ImageTooLarge => "IMAGE_TOO_LARGE"
    case GenerationError => "GENERATION_ERROR"
    case InvalidParameters => "INVALID_PARAMETERS"
  }

  /** Reads an error code back to the subclass that carries it: the codes
      identify the classes one-to-one. */
  function ClassOfCode(code: string): (r: Option<ErrorClass>)
    ensures forall k :: r == Some(k) <==> code == CodeOf(k)
  {
    if code == "MODEL_LOAD_ERROR" then Some(ModelLoadError)
    else if code == "IMAGE_PROCESSING_ERROR" then Some(ImageProcessingError)
    else if code == "INVALID_IMAGE_FORMAT" then Some(InvalidImageFormat)
    else if code == "IMAGE_TOO_LARGE" then Some(ImageTooLarge)
    else if code == "GENERATION_ERROR" then Some(GenerationError)
    else if code == "INVALID_PARAMETERS" then Some(InvalidParameters)
    else None
  }

  /** An exception raised somewhere in the core. */
  datatype Error =
      /** An `APIException`: status, detail text and optional error code. */
    | Api(status: int, detail: string, errorCode: Option<string>)
      /** A plain `HTTPException` (rate limit, request size). */
    | Http(status: int, detail: string)
      /** Any other exception (`ValueError`, `IndexError`, library errors). */
    | Unexpected(message: string)
  {
    /** This is an instance of subclass `k`. */
    predicate Is(k: ErrorClass) {
      Api? && status == StatusOf(k) && errorCode == Some(CodeOf(k))
    }
  }

  /** Constructing subclass `k` with the given detail text. */
  function Raise(k: ErrorClass, detail: string): (e: Error)
    ensures e.Is(k) && e.detail == detail
  {
    Api(StatusOf(k), detail, Some(CodeOf(k)))
  }

  /** The subclass of an exception, when it is one of the six. */
  function ClassOf(e: Error): Option<ErrorClass> {
    if e.Api? && e.errorCode.Some? then ClassOfCode(e.errorCode.value) else None
  }

  /** An exception raised as subclass `k` is recognised as `k` and as no other. */
  lemma RaiseClassRoundTrip(k: ErrorClass, detail: string)
    ensures ClassOf(Raise(k, detail)) == Some(k)
    ensures forall j :: Raise(k, detail).Is(j) <==> j == k
  {
    assert ClassOfCode(CodeOf(k)) == Some(k);
  }

  /** `str(e)` for an exception: an HTTP exception renders as
      `"<status>: <detail>"`, anything else as its message. */
  function Describe(e: Error): string {
    match e
    case Api(status, detail, _) => Text.IntToString(status) + ": " + detail
    case Http(status, detail) => Text.IntToString(status) + ": " + detail
    case Unexpected(message) => message
  }

  /** The `error` object of the JSON failure body. */
  datatype ErrorBody = ErrorBody(message: string, errorType: string, code: int)

  /** A JSON response carrying a failure body. */
  datatype JsonResponse = JsonResponse(status: int, body: ErrorBody)

  /** The handler registered for `APIException`: the exception's own status,
      its detail as the message and its error code as the type. */
  function ApiExceptionHandler(e: Error): (r: JsonResponse)
    requires e.Api?
    ensures r.status == e.status && r.body.code == e.status
    ensures r.body.message == e.detail
    ensures e.errorCode.Some? && e.errorCode.value != "" ==> r.body.errorType == e.errorCode.value
    ensures e.errorCode.None? || e.errorCode.value == "" ==> r.body.errorType == "api_error"
    ensures r.body.errorType != ""
  {
    JsonResponse(e.status, ErrorBody(e.detail, CodeOrDefault(e.errorCode), e.status))
  }

  /** `code or "api_error"`: Python's `or` falls back on a missing code and
      on the empty string alike. */
  function CodeOrDefault(code: Option<string>): string {
    if code.Some? && code.value != "" then code.value else "api_error"
  }

  /** An empty error code is as good as none: the handler reports the
      generic type for it. */
  lemma EmptyCodeFallsBack(status: int, detail: string)
    ensures ApiExceptionHandler(Api(status, detail, Some(""))) == ApiExceptionHandler(Api(status, detail, None))
    ensures ApiExceptionHandler(Api(status, detail, Some(""))).body.errorType == "api_error"
  {
  }

  /** The handler's body for subclass `k` carries `k`'s status and a type from
      which `k` is recovered. */
  lemma ApiHandlerIdentifiesClass(k: ErrorClass, detail: string)
    ensures var r := ApiExceptionHandler(Raise(k, detail));
      && r.status == StatusOf(k)
      && r.body.code == StatusOf(k)
      && r.body.message == detail
      && ClassOfCode(r.body.errorType) == Some(k)
  {
  }

  /** The handler for every other exception: always the same 500 body,
      revealing nothing about the exception. */
  function GeneralExceptionHandler(e: Error): (r: JsonResponse)
    ensures r.status == 500 && r.body.code == 500
    ensures r.body.message == "Internal server error"
    ensures r.body.errorType == "internal_error"
  {
    JsonResponse(500, ErrorBody("Internal server error", "internal_error", 500))
  }

  /** The general handler's response does not depend on the exception. */
  lemma GeneralHandlerIgnoresException(e1: Error, e2: Error)
    ensures GeneralExceptionHandler(e1) == GeneralExceptionHandler(e2)
  {
  }
}

=== FILE: flux_model.dfy ===
/** The model manager: the lazily loaded pipeline handle, the seed policy
    and the three model operations (generate, edit, vary). The pipeline
    itself is opaque: loading it is one of three outcomes supplied by the
    environment, and running it is a function from the call's arguments to
    the images it returns or the text of the error it raises. */
module FluxModel {
  import opened Results
  import opened Text
  import opened Imaging
  import opened Exceptions

  // ---------------------------------------------------------------------------
  // Load state
  // ---------------------------------------------------------------------------

  /** An opaque loaded pipeline. */
  datatype Pipeline = Pipeline(device: string)

  /** The manager's state: the loaded flag and the pipeline slot. There is
      no failed state; a failed load leaves the flag down. */
  datatype Manager = Manager(modelLoaded: bool, pipeline: Option<Pipeline>) {

    /** `is_loaded`: the flag is up and a pipeline is present. */
    predicate IsLoaded() {
      modelLoaded && pipeline.Some?
    }

    /** The flag is only ever raised together with a pipeline. */
    predicate Consistent() {
      modelLoaded ==> pipeline.Some?
    }
  }

  /** The state before the first load. */
  const Initial := Manager(false, None)

  /** What one attempt to load the pipeline does: reading the weights fails;
      they are read but moving them to the device fails (the slot then
      already holds the unmoved pipeline); or both succeed. */
  datatype LoadAttempt =
    | PretrainedFailed(reason: string)
    | DeviceMoveFailed(partial: Pipeline, reason: string)
    | Loaded(ready: Pipeline)

  /** A state change together with the outcome of the call that made it. */
  datatype Loading = Loading(manager: Manager, outcome: Outcome<Error>)

  function LoadFailure(reason: string): Error {
    Raise(ModelLoadError, "Failed to load model: " + reason)
  }

  /** `_load_model`: a successful attempt raises the flag with the device
      pipeline; a failed one raises `ModelLoadError` and leaves the flag as
      it was. */
  function LoadPipeline(m: Manager, attempt: LoadAttempt): (r: Loading)
    ensures r.outcome.Pass? <==> attempt.Loaded?
    ensures attempt.Loaded? ==> r.manager == Manager(true, Some(attempt.ready))
    ensures !attempt.Loaded? ==>
      r.outcome == Fail(LoadFailure(attempt.reason)) && r.manager.modelLoaded == m.modelLoaded
    ensures m.Consistent() ==> r.manager.Consistent()
    ensures m.Consistent() && !m.IsLoaded() && r.outcome.Fail? ==> !r.manager.IsLoaded()
  {
    match attempt
    case PretrainedFailed(reason) => Loading(m, Fail(LoadFailure(reason)))
    case DeviceMoveFailed(partial, reason) => Loading(m.(pipeline := Some(partial)), Fail(LoadFailure(reason)))
    case Loaded(p) => Loading(Manager(true, Some(p)), Pass)
  }

  /** A model call can go ahead: the pipeline is loaded, or this attempt loads it. */
  predicate Ready(m: Manager, attempt: LoadAttempt) {
    m.IsLoaded() || attempt.Loaded?
  }

  /** `_ensure_model_loaded`: loads only when not loaded; afterwards the
      manager is loaded iff the call passed. */
  function EnsureModelLoaded(m: Manager, attempt: LoadAttempt): (r: Loading)
    ensures m.IsLoaded() ==> r == Loading(m, Pass)
    ensures r.outcome.Pass? <==> Ready(m, attempt)
    ensures r.outcome.Pass? ==> r.manager.IsLoaded()
    ensures m.Consistent() ==> (r.manager.IsLoaded() <==> r.outcome.Pass?)
    ensures m.Consistent() ==> r.manager.Consistent()
    ensures r.outcome.Fail? ==> r.outcome.error.Is(ModelLoadError)
  {
    if !m.IsLoaded() then LoadPipeline(m, attempt) else Loading(m, Pass)
  }

  /** `load_model`, the public preload: the same effect as ensuring the
      model is loaded. */
  function LoadModel(m: Manager, attempt: LoadAttempt): (r: Loading)
    ensures m.IsLoaded() ==> r == Loading(m, Pass)
    ensures r.outcome.Pass? <==> Ready(m, attempt)
    ensures r.outcome.Pass? ==> r.manager.IsLoaded()
    ensures r.outcome.Fail? ==> r.outcome.error.Is(ModelLoadError)
  {
    if !m.IsLoaded() then EnsureModelLoaded(m, attempt) else Loading(m, Pass)
  }

  /** Loading is idempotent: once a call has passed, later calls change
      nothing and consult no load attempt. */
  lemma EnsureIdempotent(m: Manager, first: LoadAttempt, later: LoadAttempt)
    requires EnsureModelLoaded(m, first).outcome.Pass?
    ensures var m1 := EnsureModelLoaded(m, first).manager;
      && EnsureModelLoaded(m1, later) == Loading(m1, Pass)
      && LoadModel(m1, later) == Loading(m1, Pass)
  {
  }

  /** A failed load is retried: from a consistent unloaded state, a failed
      attempt leaves the manager unloaded and a later successful attempt
      loads it. */
  lemma FailedLoadIsRetried(m: Manager, failed: LoadAttempt, pipeline: Pipeline)
    requires m.Consistent() && !m.IsLoaded() && !failed.Loaded?
    ensures var m1 := EnsureModelLoaded(m, failed).manager;
      && !m1.IsLoaded()
      && m1.Consistent()
      && EnsureModelLoaded(m1, Loaded(pipeline)) == Loading(Manager(true, Some(pipeline)), Pass)
  {
  }

  /** The `pipeline` accessor: the pipeline iff loaded, `ModelLoadError`
      otherwise. */
  function GetPipeline(m: Manager): (r: Result<Pipeline, Error>)
    ensures r.Success? <==> m.IsLoaded()
    ensures r.Success? ==> m.pipeline == Some(r.value)
    ensures r.Failure? ==> r.error == Raise(ModelLoadError, "Model not loaded")
  {
    if !m.IsLoaded() then Failure(Raise(ModelLoadError, "Model not loaded")) else Success(m.pipeline.value)
  }

  // ---------------------------------------------------------------------------
  // Seed policy
  // ---------------------------------------------------------------------------

  const SeedModulus: nat := 0x1_0000_0000

  /** `abs(seed)`. */
  function Magnitude(seed: int): nat {
    if seed < 0 then -seed else seed
  }

  /** The seed handed to the random generator: `abs(seed) % 2**32`, the one
      value in `[0, 2**32)` congruent to the seed's magnitude. */
  function SafeSeed(seed: int): (r: nat)
    ensures r < SeedModulus
    ensures (Magnitude(seed) - r) % SeedModulus == 0
    ensures 0 <= seed < SeedModulus ==> r == seed
    ensures seed < 0 && -seed < SeedModulus ==> r == -seed
  {
    Magnitude(seed) % SeedModulus
  }

  /** A seed and its negation drive the generator identically. */
  lemma SafeSeedIgnoresSign(seed: int)
    ensures SafeSeed(-seed) == SafeSeed(seed)
  {
  }

  /** Seeds `2**32` apart drive the generator identically: the reduction wraps
      around, so the schema's unbounded seeds fall into `2**32` classes. */
  lemma {:induction false} SafeSeedPeriodic(seed: nat)
    ensures SafeSeed(seed + SeedModulus) == SafeSeed(seed)
  {
    var q := seed / SeedModulus;
    var r := seed % SeedModulus;
    assert seed == q * SeedModulus + r;
    assert seed + SeedModulus == (q + 1) * SeedModulus + r;
  }

  /** Two different requested seeds that collide: `2**32` and `0`. */
  lemma SeedWrapCollision()
    ensures GeneratorSeed(Some(SeedModulus)) == GeneratorSeed(Some(0))
  {
    SafeSeedPeriodic(0);
  }

  /** The generator seed for an optional seed: none without a seed. */
  function GeneratorSeed(seed: Option<int>): (g: Option<nat>)
    ensures g.None? <==> seed.None?
    ensures g.Some? ==> g.value == SafeSeed(seed.value) && g.value < SeedModulus
  {
    match seed
    case None => None
    case Some(s) => Some(SafeSeed(s))
  }

  /** The seed of sub-invocation `i`: `seed + i`, or none without a base seed. */
  function SubSeed(seed: Option<int>, i: nat): (r: Option<int>)
    ensures r.None? <==> seed.None?
    ensures r.Some? ==> r.value - seed.value == i
  {
    match seed
    case None => None
    case Some(s) => Some(s + i)
  }

  /** Sub-invocations of one request get pairwise distinct generator seeds
      as long as their raw seeds stay inside `[0, 2**32)`. */
  lemma SubSeedsDistinct(base: int, i: nat, j: nat)
    requires 0 <= base && base + i < SeedModulus && base + j < SeedModulus && i != j
    ensures GeneratorSeed(SubSeed(Some(base), i)) != GeneratorSeed(SubSeed(Some(base), j))
  {
  }

  /** Below zero `abs` folds the sub-seeds onto each other: for base seed
      `-k`, sub-invocations `i` and `j` with `i + j == 2k` get the same
      generator seed, so seed `-1` with three images seeds images 0 and 2
      alike. */
  lemma {:induction false} SubSeedsFoldAtZero(k: int, i: nat, j: nat)
    requires 0 <= k && i + j == 2 * k && i != j
    ensures GeneratorSeed(SubSeed(Some(-k), i)) == GeneratorSeed(SubSeed(Some(-k), j))
  {
    SafeSeedIgnoresSign(-k + i);
  }

  /** The smallest case: seed `-1` and three images give generator seeds
      1, 0 and 1. */
  lemma NegativeSeedRepeats()
    ensures GeneratorSeed(SubSeed(Some(-1), 0)) == Some(1)
    ensures GeneratorSeed(SubSeed(Some(-1), 1)) == Some(0)
    ensures GeneratorSeed(SubSeed(Some(-1), 2)) == Some(1)
  {
  }

  /** Past that range the sub-seeds wrap: the sub-invocation whose raw seed
      reaches `2**32` repeats the generator seed of a base seed of `0`, so a
      request with base seed `2**32 - 1` and two images seeds its second image
      like a request with seed `0`. */
  lemma SubSeedsWrap(base: nat, i: nat)
    requires base + i == SeedModulus
    ensures GeneratorSeed(SubSeed(Some(base), i)) == GeneratorSeed(Some(0))
  {
    SafeSeedPeriodic(0);
  }

  // ---------------------------------------------------------------------------
  // Pipeline calls
  // ---------------------------------------------------------------------------

  /** The arguments of one pipeline call. */
  datatype Call = Call(
    input: Option<Image>,
    prompt: string,
    width: int,
    height: int,
    guidanceScale: real,
    numInferenceSteps: int,
    generator: Option<nat>
  )

  /** Running the pipeline: `result.images`, or the text of the error raised.
      A pure function of the call: the randomness of an unseeded call is not
      modelled. */
  type Infer = Call -> Result<seq<Image>, string>

  /** The environment of the model: what loading does and what the pipeline returns. */
  datatype Backend = Backend(load: LoadAttempt, infer: Infer)

  /** `result.images[0]`; indexing an empty list raises. */
  function FirstImage(out: Result<seq<Image>, string>): (r: Result<Image, string>)
    ensures r.Success? <==> out.Success? && |out.value| > 0
    ensures r.Success? ==> r.value == out.value[0]
  {
    match out
    case Failure(why) => Failure(why)
    case Success(images) => if |images| == 0 then Failure("list index out of range") else Success(images[0])
  }

  /** The call yields an image. */
  predicate Produces(infer: Infer, c: Call) {
    FirstImage(infer(c)).Success?
  }

  /** The images a run of calls yields, one per call, in call order. */
  function Outputs(infer: Infer, calls: seq<Call>): (images: seq<Image>)
    requires forall i :: 0 <= i < |calls| ==> Produces(infer, calls[i])
    ensures |images| == |calls|
    ensures forall i :: 0 <= i < |calls| ==>
      FirstImage(infer(calls[i])).Success? && images[i] == FirstImage(infer(calls[i])).value
  {
    if calls == [] then []
    else
      assert Produces(infer, calls[0]);
      [FirstImage(infer(calls[0])).value] + Outputs(infer, calls[1..])
  }

  /** A run of calls that stopped at its first call yielding no image: every
      earlier call yielded one, and the error raised is `GenerationError`
      whose detail is `prefix` followed by that last call's error text. */
  predicate StoppedAtFirstFailure(infer: Infer, calls: seq<Call>, error: Error, prefix: string) {
    && |calls| >= 1
    && (forall j :: 0 <= j < |calls| - 1 ==> Produces(infer, calls[j]))
    && !Produces(infer, calls[|calls| - 1])
    && error == Raise(GenerationError, prefix + FirstImage(infer(calls[|calls| - 1])).error)
  }

  /** A single failing call after a run of successful ones: the longer run
      stopped at its first failure too. */
  lemma StoppedAfterSuccesses(infer: Infer, done: seq<Call>, c: Call, error: Error, prefix: string)
    requires forall j :: 0 <= j < |done| ==> Produces(infer, done[j])
    requires StoppedAtFirstFailure(infer, [c], error, prefix)
    ensures StoppedAtFirstFailure(infer, done + [c], error, prefix)
  {
    var all := done + [c];
    assert all[|all| - 1] == c;
    assert forall j :: 0 <= j < |all| - 1 ==> all[j] == done[j];
  }

  const GenerationFailed := "Generation failed: "
  const EditFailed := "Editing failed: "
  const VariationFailed := "Variation generation failed: "

  /** The manager state after a sequence of model calls, the calls made, and
      the value or the exception. */
  datatype Run<T> = Run(manager: Manager, calls: seq<Call>, result: Result<T, Error>)

  /** The call `generate_image` makes. */
  function GenerationCall(prompt: string, width: int, height: int, guidance: real, steps: int, seed: Option<int>): Call {
    Call(None, prompt, width, height, guidance, steps, GeneratorSeed(seed))
  }

  /** The call `edit_image` makes: the input converted to RGB, at its own size. */
  function EditCall(image: Image, prompt: string, guidance: real, steps: int, seed: Option<int>): (c: Call)
    ensures c.input == Some(ToRgb(image))
    ensures c.width == image.width && c.height == image.height
  {
    var rgb := ToRgb(image);
    Call(Some(rgb), prompt, rgb.width, rgb.height, guidance, steps, GeneratorSeed(seed))
  }

  const VariationLead := "Based on this image, "
  const VariationTail := ". Keep the main subject but add variations."

  /** The fixed framing a variation prompt is wrapped in. */
  function VariationPrompt(prompt: string): (r: string)
    ensures StartsWith(r, VariationLead)
    ensures |r| == |VariationLead| + |prompt| + |VariationTail|
    ensures r[|VariationLead|..|VariationLead| + |prompt|] == prompt
    ensures r[|VariationLead| + |prompt|..] == VariationTail
  {
    VariationLead + prompt + VariationTail
  }

  /** Framing loses nothing: different prompts give different framed prompts. */
  lemma VariationPromptInjective(p: string, q: string)
    requires VariationPrompt(p) == VariationPrompt(q)
    ensures p == q
  {
    assert |p| == |q|;
  }

  /** The call `generate_variations` makes for one image. */
  function VariationCall(image: Image, prompt: string, guidance: real, steps: int, seed: Option<int>): (c: Call)
    ensures c.input == Some(ToRgb(image))
    ensures c.width == image.width && c.height == image.height
    ensures c.prompt == VariationPrompt(prompt)
    ensures c.generator == GeneratorSeed(seed)
  {
    EditCall(image, VariationPrompt(prompt), guidance, steps, seed)
  }

  /** Ensures the model is loaded, then makes call `c`; a pipeline failure
      becomes `GenerationError` with the given prefix, and no image. */
  function Invoke(m: Manager, backend: Backend, c: Call, failure: string): (r: Run<Image>)
    ensures r.manager == EnsureModelLoaded(m, backend.load).manager
    ensures r.calls == if Ready(m, backend.load) then [c] else []
    ensures r.result.Success? <==> Ready(m, backend.load) && Produces(backend.infer, c)
    ensures r.result.Success? ==> r.result.value == FirstImage(backend.infer(c)).value
    ensures !Ready(m, backend.load) ==> r.result.Failure? && r.result.error.Is(ModelLoadError)
    ensures Ready(m, backend.load) && r.result.Failure? ==>
      r.result.error.Is(GenerationError) && StartsWith(r.result.error.detail, failure)
    ensures Ready(m, backend.load) && r.result.Failure? ==> StoppedAtFirstFailure(backend.infer, r.calls, r.result.error, failure)
    ensures !Ready(m, backend.load) ==> r.result == Failure(EnsureModelLoaded(m, backend.load).outcome.error)
  {
    var loading := EnsureModelLoaded(m, backend.load);
    if loading.outcome.Fail? then Run(loading.manager, [], Failure(loading.outcome.error))
    else
      match FirstImage(backend.infer(c))
      case Failure(why) => Run(loading.manager, [c], Failure(Raise(GenerationError, failure + why)))
      case Success(img) => Run(loading.manager, [c], Success(img))
  }

  /** `generate_image`: one pipeline call without an input image, at the
      requested size, seeded from `seed`. */
  function GenerateImage(m: Manager, backend: Backend, prompt: string, width: int, height: int,
                         guidance: real, steps: int, seed: Option<int>): (r: Run<Image>)
    ensures var c := GenerationCall(prompt, width, height, guidance, steps, seed);
      && r.calls == (if Ready(m, backend.load) then [c] else [])
      && c.input.None? && c.width == width && c.height == height && c.generator == GeneratorSeed(seed)
      && (r.result.Success? <==> Ready(m, backend.load) && Produces(backend.infer, c))
      && (r.result.Success? ==> r.result.value == FirstImage(backend.infer(c)).value)
    ensures r.manager == EnsureModelLoaded(m, backend.load).manager
    ensures !Ready(m, backend.load) ==> r.result.Failure? && r.result.error.Is(ModelLoadError)
    ensures r.result.Failure? ==> r.result.error.Is(ModelLoadError) || r.result.error.Is(GenerationError)
    ensures !Ready(m, backend.load) ==> r.result == Failure(EnsureModelLoaded(m, backend.load).outcome.error)
    ensures Ready(m, backend.load) && r.result.Failure? ==>
      StoppedAtFirstFailure(backend.infer, r.calls, r.result.error, GenerationFailed)
  {
    Invoke(m, backend, GenerationCall(prompt, width, height, guidance, steps, seed), GenerationFailed)
  }

  /** `edit_image`: one pipeline call on the RGB-converted input at the
      input's own size. */
  function EditImage(m: Manager, backend: Backend, image: Image, prompt: string,
                     guidance: real, steps: int, seed: Option<int>): (r: Run<Image>)
    ensures var c := EditCall(image, prompt, guidance, steps, seed);
      && r.calls == (if Ready(m, backend.load) then [c] else [])
      && (r.result.Success? <==> Ready(m, backend.load) && Produces(backend.infer, c))
      && (r.result.Success? ==> r.result.value == FirstImage(backend.infer(c)).value)
    ensures r.manager == EnsureModelLoaded(m, backend.load).manager
    ensures !Ready(m, backend.load) ==> r.result.Failure? && r.result.error.Is(ModelLoadError)
    ensures r.result.Failure? ==> r.result.error.Is(ModelLoadError) || r.result.error.Is(GenerationError)
    ensures !Ready(m, backend.load) ==> r.result == Failure(EnsureModelLoaded(m, backend.load).outcome.error)
    ensures Ready(m, backend.load) && r.result.Failure? ==>
      StoppedAtFirstFailure(backend.infer, r.calls, r.result.error, EditFailed)
  {
    Invoke(m, backend, EditCall(image, prompt, guidance, steps, seed), EditFailed)
  }

  /** How many times `range(n)` iterates. */
  function Count(n: int): nat {
    if n < 0 then 0 else n
  }

  /** `generate_variations`: after ensuring the model is loaded, one
      pipeline call per requested image, image `i` seeded with `seed + i`
      and prompted with the framed prompt; the loop stops at the first call
      that yields no image, discards the images made so far and raises that
      call's error as `GenerationError`. (`variationStrength` is accepted
      and not used.) */
  method GenerateVariations(m: Manager, backend: Backend, image: Image, prompt: string, numImages: int,
                            guidance: real, steps: int, variationStrength: real, seed: Option<int>)
    returns (r: Run<seq<Image>>)
    ensures r.manager == EnsureModelLoaded(m, backend.load).manager
    ensures |r.calls| <= Count(numImages)
    ensures forall i :: 0 <= i < |r.calls| ==>
      r.calls[i] == VariationCall(image, prompt, guidance, steps, SubSeed(seed, i))
    ensures r.result.Success? <==>
      && Ready(m, backend.load)
      && forall i :: 0 <= i < Count(numImages) ==>
           Produces(backend.infer, VariationCall(image, prompt, guidance, steps, SubSeed(seed, i)))
    ensures r.result.Success? ==>
      && |r.result.value| == Count(numImages)
      && |r.calls| == Count(numImages)
      && forall i :: 0 <= i < Count(numImages) ==>
           r.result.value[i] == FirstImage(backend.infer(r.calls[i])).value
    ensures !Ready(m, backend.load) ==> r.result.Failure? && r.result.error.Is(ModelLoadError) && r.calls == []
    ensures !Ready(m, backend.load) ==> r.result == Failure(EnsureModelLoaded(m, backend.load).outcome.error)
    ensures Ready(m, backend.load) && r.result.Failure? ==>
      && r.result.error.Is(GenerationError)
      && StartsWith(r.result.error.detail, VariationFailed)
      && StoppedAtFirstFailure(backend.infer, r.calls, r.result.error, VariationFailed)
  {
    var loading := EnsureModelLoaded(m, backend.load);
    if loading.outcome.Fail? {
      return Run(loading.manager, [], Failure(loading.outcome.error));
    }
    var images: seq<Image> := [];
    var calls: seq<Call> := [];
    var i := 0;
    while i < numImages
      invariant 0 <= i <= Count(numImages)
      invariant |images| == i && |calls| == i
      invariant forall j :: 0 <= j < i ==>
        && calls[j] == VariationCall(image, prompt, guidance, steps, SubSeed(seed, j))
        && Produces(backend.infer, calls[j])
        && images[j] == FirstImage(backend.infer(calls[j])).value
    {
      var c := VariationCall(image, prompt, guidance, steps, SubSeed(seed, i));
      calls := calls + [c];
      var out := FirstImage(backend.infer(c));
      if out.Failure? {
        return Run(loading.manager, calls, Failure(Raise(GenerationError, VariationFailed + out.error)));
      }
      images := images + [out.value];
      i := i + 1;
    }
    return Run(loading.manager, calls, Success(images));
  }
}

=== FILE: image_service.dfy ===
/** The image service: validates a request, prepares the input image,
    fans the work out into sequential model calls (sub-invocation `i`
    seeded with `seed + i`) and assembles the response. Every failure,
    whatever its class, leaves the service as `GenerationError` carrying
    the operation's prefix and the text of the original error. */
module ImageService {
  import opened Results
  import opened Text
  import opened Imaging
  import opened Exceptions
  import Config
  import opened Schemas
  import ImageUtils
  import ResponseUtils
  import FluxModel

  type Manager = FluxModel.Manager
  type Backend = FluxModel.Backend
  type Call = FluxModel.Call

  // ---------------------------------------------------------------------------
  // Sub-invocations
  // ---------------------------------------------------------------------------

  /** One sub-invocation handed to the model manager. */
  datatype Job =
    | Generate(prompt: string, width: int, height: int, guidance: real, steps: int, seed: Option<int>)
    | Edit(image: Image, prompt: string, guidance: real, steps: int, seed: Option<int>)
    | Vary(image: Image, prompt: string, guidance: real, steps: int, strength: real, seed: Option<int>)

  /** The pipeline call a sub-invocation makes. */
  function JobCall(job: Job): Call {
    match job
    case Generate(prompt, width, height, guidance, steps, seed) =>
      FluxModel.GenerationCall(prompt, width, height, guidance, steps, seed)
    case Edit(image, prompt, guidance, steps, seed) => FluxModel.EditCall(image, prompt, guidance, steps, seed)
    case Vary(image, prompt, guidance, steps, _, seed) => FluxModel.VariationCall(image, prompt, guidance, steps, seed)
  }

  /** The text the manager puts before a failed call's error. */
  function JobPrefix(job: Job): string {
    match job
    case Generate(_, _, _, _, _, _) => FluxModel.GenerationFailed
    case Edit(_, _, _, _, _) => FluxModel.EditFailed
    case Vary(_, _, _, _, _, _) => FluxModel.VariationFailed
  }

  /** One sub-invocation; a variation asks the manager for one image and
      keeps the first element of the list it returns. */
  method Perform(m: Manager, backend: Backend, job: Job) returns (r: FluxModel.Run<Image>)
    ensures r.manager == FluxModel.EnsureModelLoaded(m, backend.load).manager
    ensures r.calls == if FluxModel.Ready(m, backend.load) then [JobCall(job)] else []
    ensures r.result.Success? <==> FluxModel.Ready(m, backend.load) && FluxModel.Produces(backend.infer, JobCall(job))
    ensures r.result.Success? ==> r.result.value == FluxModel.FirstImage(backend.infer(JobCall(job))).value
    ensures !FluxModel.Ready(m, backend.load) ==> r.result.Failure? && r.result.error.Is(ModelLoadError)
    ensures r.result.Failure? ==> r.result.error.Is(ModelLoadError) || r.result.error.Is(GenerationError)
    ensures !FluxModel.Ready(m, backend.load) ==>
      r.result == Failure(FluxModel.EnsureModelLoaded(m, backend.load).outcome.error)
    ensures FluxModel.Ready(m, backend.load) && r.result.Failure? ==>
      FluxModel.StoppedAtFirstFailure(backend.infer, r.calls, r.result.error, JobPrefix(job))
  {
    match job
    case Generate(prompt, width, height, guidance, steps, seed) =>
      r := FluxModel.GenerateImage(m, backend, prompt, width, height, guidance, steps, seed);
    case Edit(image, prompt, guidance, steps, seed) =>
      r := FluxModel.EditImage(m, backend, image, prompt, guidance, steps, seed);
    case Vary(image, prompt, guidance, steps, strength, seed) =>
      var run := FluxModel.GenerateVariations(m, backend, image, prompt, 1, guidance, steps, strength, seed);
      assert FluxModel.SubSeed(seed, 0) == seed;
      if run.result.Failure? {
        r := FluxModel.Run(run.manager, run.calls, Failure(run.result.error));
      } else {
        r := FluxModel.Run(run.manager, run.calls, Success(run.result.value[0]));
      }
  }

  /** One sub-invocation on a loaded model: exactly its call is made and the
      manager stays as it is. */
  method PerformLoaded(current: Manager, backend: Backend, job: Job, ghost c: Call, ghost prefix: string)
    returns (r: FluxModel.Run<Image>)
    requires current.IsLoaded()
    requires c == JobCall(job) && prefix == JobPrefix(job)
    ensures r.manager == current && r.calls == [c]
    ensures r.result.Success? <==> FluxModel.Produces(backend.infer, c)
    ensures r.result.Success? ==> r.result.value == FluxModel.FirstImage(backend.infer(c)).value
    ensures r.result.Failure? ==>
      FluxModel.StoppedAtFirstFailure(backend.infer, r.calls, r.result.error, prefix)
  {
    r := Perform(current, backend, job);
  }

  /** Runs the sub-invocations one after another; the first failure stops
      the loop, discards the images made so far and is passed on. */
  method Dispatch(m: Manager, backend: Backend, jobs: seq<Job>) returns (r: FluxModel.Run<seq<Image>>)
    ensures jobs == [] ==> r == FluxModel.Run(m, [], Success([]))
    ensures jobs != [] ==> r.manager == FluxModel.EnsureModelLoaded(m, backend.load).manager
    ensures |r.calls| <= |jobs|
    ensures forall i :: 0 <= i < |r.calls| ==> r.calls[i] == JobCall(jobs[i])
    ensures jobs != [] && !FluxModel.Ready(m, backend.load) ==>
      r.calls == [] && r.result == Failure(FluxModel.EnsureModelLoaded(m, backend.load).outcome.error)
    ensures r.result.Success? <==>
      || jobs == []
      || (&& FluxModel.Ready(m, backend.load)
          && forall i :: 0 <= i < |jobs| ==> FluxModel.Produces(backend.infer, JobCall(jobs[i])))
    ensures r.result.Success? ==> |r.calls| == |jobs| && r.result.value == FluxModel.Outputs(backend.infer, r.calls)
    ensures FluxModel.Ready(m, backend.load) && r.result.Failure? ==>
      && 1 <= |r.calls| <= |jobs|
      && FluxModel.StoppedAtFirstFailure(backend.infer, r.calls, r.result.error, Prefixes(jobs)[|r.calls| - 1])
  {
    if jobs == [] {
      return FluxModel.Run(m, [], Success([]));
    }
    // The first call loads the model if need be; every later one finds it loaded.
    var first := Perform(m, backend, jobs[0]);
    if first.result.Failure? {
      if FluxModel.Ready(m, backend.load) {
        assert first.calls == [JobCall(jobs[0])];
        assert Prefixes(jobs)[|first.calls| - 1] == JobPrefix(jobs[0]);
      }
      return FluxModel.Run(first.manager, first.calls, Failure(first.result.error));
    }
    r := Continue(first.manager, backend, jobs, Plan(jobs), Prefixes(jobs), first.calls, [first.result.value]);
  }

  /** The calls the sub-invocations make, in order. */
  ghost function Plan(jobs: seq<Job>): (calls: seq<Call>)
    ensures |calls| == |jobs|
    ensures forall k {:trigger JobCall(jobs[k])} :: 0 <= k < |jobs| ==> calls[k] == JobCall(jobs[k])
  {
    seq(|jobs|, k requires 0 <= k < |jobs| => JobCall(jobs[k]))
  }

  /** The error prefixes of the sub-invocations, in order. */
  ghost function Prefixes(jobs: seq<Job>): (prefixes: seq<string>)
    ensures |prefixes| == |jobs|
    ensures forall k {:trigger JobPrefix(jobs[k])} :: 0 <= k < |jobs| ==> prefixes[k] == JobPrefix(jobs[k])
  {
    seq(|jobs|, k requires 0 <= k < |jobs| => JobPrefix(jobs[k]))
  }

  /** The rest of a fan-out on a loaded model: `calls` and `images` record
      the sub-invocations already done, each of which yielded its image; the
      remaining ones run in order until the first failure. */
  method Continue(current: Manager, backend: Backend, jobs: seq<Job>,
                  ghost wanted: seq<Call>, ghost prefixes: seq<string>,
                  calls: seq<Call>, images: seq<Image>)
    returns (r: FluxModel.Run<seq<Image>>)
    requires current.IsLoaded()
    requires |wanted| == |jobs|
    requires forall k {:trigger JobCall(jobs[k])} :: 0 <= k < |jobs| ==> wanted[k] == JobCall(jobs[k])
    requires |prefixes| == |jobs|
    requires forall k {:trigger JobPrefix(jobs[k])} :: 0 <= k < |jobs| ==> prefixes[k] == JobPrefix(jobs[k])
    requires |calls| == |images| <= |jobs|
    requires forall j :: 0 <= j < |calls| ==>
      && calls[j] == wanted[j]
      && FluxModel.Produces(backend.infer, calls[j])
      && images[j] == FluxModel.FirstImage(backend.infer(calls[j])).value
    ensures r.manager == current
    ensures |calls| <= |r.calls| <= |jobs|
    ensures forall i :: 0 <= i < |r.calls| ==> r.calls[i] == wanted[i]
    ensures r.result.Success? <==>
      forall i :: |calls| <= i < |jobs| ==> FluxModel.Produces(backend.infer, wanted[i])
    ensures r.result.Success? ==> |r.calls| == |jobs| && r.result.value == FluxModel.Outputs(backend.infer, r.calls)
    ensures r.result.Failure? ==>
      && |calls| < |r.calls|
      && FluxModel.StoppedAtFirstFailure(backend.infer, r.calls, r.result.error, prefixes[|r.calls| - 1])
  {
    var done := calls;
    var made := images;
    var i := |calls|;
    while i < |jobs|
      invariant |calls| <= i <= |jobs|
      invariant |done| == i && |made| == i
      invariant forall j :: 0 <= j < i ==>
        && done[j] == wanted[j]
        && FluxModel.Produces(backend.infer, done[j])
        && made[j] == FluxModel.FirstImage(backend.infer(done[j])).value
    {
      var step := PerformLoaded(current, backend, jobs[i], wanted[i], prefixes[i]);
      if step.result.Failure? {
        FluxModel.StoppedAfterSuccesses(backend.infer, done, wanted[i], step.result.error, prefixes[i]);
        var all := done + step.calls;
        assert forall k :: 0 <= k < |all| ==> all[k] == wanted[k];
        return FluxModel.Run(current, all, Failure(step.result.error));
      }
      done := done + step.calls;
      made := made + [step.result.value];
      i := i + 1;
    }
    return FluxModel.Run(current, done, Success(made));
  }

  /** `_generate_multiple_images`: `numImages` text-to-image calls, call `i`
      seeded with `seed + i`. */
  method GenerateMultipleImages(m: Manager, backend: Backend, prompt: string, width: int, height: int,
                                numImages: int, guidance: real, steps: int, seed: Option<int>)
    returns (r: FluxModel.Run<seq<Image>>)
    ensures |r.calls| <= FluxModel.Count(numImages)
    ensures forall i :: 0 <= i < |r.calls| ==>
      r.calls[i] == FluxModel.GenerationCall(prompt, width, height, guidance, steps, FluxModel.SubSeed(seed, i))
    ensures FluxModel.Count(numImages) == 0 ==> r == FluxModel.Run(m, [], Success([]))
    ensures FluxModel.Count(numImages) > 0 ==> r.manager == FluxModel.EnsureModelLoaded(m, backend.load).manager
    ensures r.result.Success? <==>
      || FluxModel.Count(numImages) == 0
      || (&& FluxModel.Ready(m, backend.load)
          && forall i :: 0 <= i < FluxModel.Count(numImages) ==>
               FluxModel.Produces(backend.infer,
                 FluxModel.GenerationCall(prompt, width, height, guidance, steps, FluxModel.SubSeed(seed, i))))
    ensures r.result.Success? ==>
      && |r.result.value| == FluxModel.Count(numImages)
      && |r.calls| == FluxModel.Count(numImages)
      && forall i :: 0 <= i < |r.calls| ==>
           r.result.value[i] == FluxModel.FirstImage(backend.infer(r.calls[i])).value
    ensures r.result.Failure? ==> r.result.error.Is(ModelLoadError) || r.result.error.Is(GenerationError)
    ensures r.result.Success? ==> r.result.value == FluxModel.Outputs(backend.infer, r.calls)
    ensures FluxModel.Count(numImages) > 0 && !FluxModel.Ready(m, backend.load) ==>
      r.calls == [] && r.result == Failure(FluxModel.EnsureModelLoaded(m, backend.load).outcome.error)
    ensures FluxModel.Ready(m, backend.load) && r.result.Failure? ==>
      FluxModel.StoppedAtFirstFailure(backend.infer, r.calls, r.result.error, FluxModel.GenerationFailed)
  {
    var jobs := seq(FluxModel.Count(numImages),
                    i requires 0 <= i => Generate(prompt, width, height, guidance, steps, FluxModel.SubSeed(seed, i)));
    r := Dispatch(m, backend, jobs);
    if FluxModel.Ready(m, backend.load) && r.result.Failure? {
      assert JobPrefix(jobs[|r.calls| - 1]) == FluxModel.GenerationFailed;
    }
  }

  /** `_edit_multiple_images`: `numImages` edits of the same input, call `i`
      seeded with `seed + i`. */
  method EditMultipleImages(m: Manager, backend: Backend, image: Image, prompt: string,
                            numImages: int, guidance: real, steps: int, seed: Option<int>)
    returns (r: FluxModel.Run<seq<Image>>)
    ensures |r.calls| <= FluxModel.Count(numImages)
    ensures forall i :: 0 <= i < |r.calls| ==>
      r.calls[i] == FluxModel.EditCall(image, prompt, guidance, steps, FluxModel.SubSeed(seed, i))
    ensures forall i :: 0 <= i < |r.calls| ==>
      r.calls[i].input == Some(ToRgb(image)) && r.calls[i].width == image.width && r.calls[i].height == image.height
    ensures FluxModel.Count(numImages) == 0 ==> r == FluxModel.Run(m, [], Success([]))
    ensures FluxModel.Count(numImages) > 0 ==> r.manager == FluxModel.EnsureModelLoaded(m, backend.load).manager
    ensures r.result.Success? <==>
      || FluxModel.Count(numImages) == 0
      || (&& FluxModel.Ready(m, backend.load)
          && forall i :: 0 <= i < FluxModel.Count(numImages) ==>
               FluxModel.Produces(backend.infer,
                 FluxModel.EditCall(image, prompt, guidance, steps, FluxModel.SubSeed(seed, i))))
    ensures r.result.Success? ==>
      && |r.result.value| == FluxModel.Count(numImages)
      && |r.calls| == FluxModel.Count(numImages)
      && forall i :: 0 <= i < |r.calls| ==>
           r.result.value[i] == FluxModel.FirstImage(backend.infer(r.calls[i])).value
    ensures r.result.Failure? ==> r.result.error.Is(ModelLoadError) || r.result.error.Is(GenerationError)
    ensures r.result.Success? ==> r.result.value == FluxModel.Outputs(backend.infer, r.calls)
    ensures FluxModel.Count(numImages) > 0 && !FluxModel.Ready(m, backend.load) ==>
      r.calls == [] && r.result == Failure(FluxModel.EnsureModelLoaded(m, backend.load).outcome.error)
    ensures FluxModel.Ready(m, backend.load) && r.result.Failure? ==>
      FluxModel.StoppedAtFirstFailure(backend.infer, r.calls, r.result.error, FluxModel.EditFailed)
  {
    var jobs := seq(FluxModel.Count(numImages),
                    i requires 0 <= i => Edit(image, prompt, guidance, steps, FluxModel.SubSeed(seed, i)));
    r := Dispatch(m, backend, jobs);
    if FluxModel.Ready(m, backend.load) && r.result.Failure? {
      assert JobPrefix(jobs[|r.calls| - 1]) == FluxModel.EditFailed;
    }
  }

  /** `_generate_image_variations`: one variation per prompt, variation `i`
      prompted with `prompts[i]` and seeded with `seed + i`. */
  method GenerateImageVariations(m: Manager, backend: Backend, image: Image, prompts: seq<string>,
                                 guidance: real, steps: int, strength: real, seed: Option<int>)
    returns (r: FluxModel.Run<seq<Image>>)
    ensures |r.calls| <= |prompts|
    ensures forall i :: 0 <= i < |r.calls| ==>
      r.calls[i] == FluxModel.VariationCall(image, prompts[i], guidance, steps, FluxModel.SubSeed(seed, i))
    ensures prompts == [] ==> r == FluxModel.Run(m, [], Success([]))
    ensures prompts != [] ==> r.manager == FluxModel.EnsureModelLoaded(m, backend.load).manager
    ensures r.result.Success? <==>
      || prompts == []
      || (&& FluxModel.Ready(m, backend.load)
          && forall i :: 0 <= i < |prompts| ==>
               FluxModel.Produces(backend.infer,
                 FluxModel.VariationCall(image, prompts[i], guidance, steps, FluxModel.SubSeed(seed, i))))
    ensures r.result.Success? ==>
      && |r.result.value| == |prompts|
      && |r.calls| == |prompts|
      && forall i :: 0 <= i < |r.calls| ==>
           r.result.value[i] == FluxModel.FirstImage(backend.infer(r.calls[i])).value
    ensures r.result.Failure? ==> r.result.error.Is(ModelLoadError) || r.result.error.Is(GenerationError)
    ensures r.result.Success? ==> r.result.value == FluxModel.Outputs(backend.infer, r.calls)
    ensures prompts != [] && !FluxModel.Ready(m, backend.load) ==>
      r.calls == [] && r.result == Failure(FluxModel.EnsureModelLoaded(m, backend.load).outcome.error)
    ensures FluxModel.Ready(m, backend.load) && r.result.Failure? ==>
      FluxModel.StoppedAtFirstFailure(backend.infer, r.calls, r.result.error, FluxModel.VariationFailed)
  {
    var jobs := seq(|prompts|,
                    i requires 0 <= i < |prompts| => Vary(image, prompts[i], guidance, steps, strength, FluxModel.SubSeed(seed, i)));
    r := Dispatch(m, backend, jobs);
    if FluxModel.Ready(m, backend.load) && r.result.Failure? {
      assert JobPrefix(jobs[|r.calls| - 1]) == FluxModel.VariationFailed;
    }
  }

  // ---------------------------------------------------------------------------
  // Request preparation
  // ---------------------------------------------------------------------------

  /** Every failure of a service operation: `GenerationError` whose detail
      is the operation's prefix followed by the text of the original error. */
  function Wrap(prefix: string, e: Error): (w: Error)
    ensures w.Is(GenerationError) && w.status == 500
    ensures StartsWith(w.detail, prefix)
    ensures w.detail == prefix + Describe(e)
  {
    Raise(GenerationError, prefix + Describe(e))
  }

  /** Wrapping hides the original class: an error raised as subclass `k`
      leaves the service as a 500 `GenerationError`, its original status
      and detail surviving only as text. */
  lemma WrapHidesClass(prefix: string, k: ErrorClass, detail: string)
    ensures var w := Wrap(prefix, Raise(k, detail));
      && w.status == 500
      && (forall j :: w.Is(j) <==> j == GenerationError)
      && w.detail == prefix + IntToString(StatusOf(k)) + ": " + detail
  {
    RaiseClassRoundTrip(GenerationError, prefix + Describe(Raise(k, detail)));
  }

  const GeneratePrefix := "Failed to generate images: "
  const EditPrefix := "Failed to edit image: "
  const VariationsPrefix := "Failed to generate variations: "

  /** `parse_image_size(request.size)` where the field may be null: `None`
      is not iterable, and that error too is reported as a format error. */
  function ParseSizeField(size: Option<string>, cfg: Config.Settings): (r: Result<Dims, Error>)
    ensures size.Some? ==> r == ImageUtils.ParseImageSize(size.value, cfg)
    ensures r.Failure? ==> r.error.Is(InvalidImageFormat)
  {
    match size
    case None => Failure(ImageUtils.SizeFailure("None", "argument of type 'NoneType' is not iterable"))
    case Some(s) => ImageUtils.ParseImageSize(s, cfg)
  }

  /** `if request.size:` — present and non-empty. */
  predicate Truthy(size: Option<string>) {
    size.Some? && size.value != ""
  }

  /** The input-image steps shared by edits and variations: decode, check
      the size, and when a size is requested, parse it and resize (keeping
      the aspect ratio) only if the image is not already that size. */
  function PrepareInput(payload: string, size: Option<string>, cfg: Config.Settings, codec: Codec): (r: Result<Image, Error>)
    ensures r.Failure? ==>
      r.error.Is(InvalidImageFormat) || r.error.Is(ImageTooLarge) || r.error.Is(ImageProcessingError)
    ensures r.Success? <==>
      var decoded := ImageUtils.DecodeBase64Image(payload, cfg, codec);
      && decoded.Success?
      && ImageUtils.ValidateImageSize(decoded.value, cfg).Pass?
      && (Truthy(size) ==>
            var target := ImageUtils.ParseImageSize(size.value, cfg);
            && target.Success?
            && (DimsOf(decoded.value) != target.value ==> codec.thumbnail(decoded.value, target.value).Success?))
    ensures r.Success? && !Truthy(size) ==> r.value == ImageUtils.DecodeBase64Image(payload, cfg, codec).value
    ensures r.Success? && Truthy(size) ==> DimsOf(r.value) == ImageUtils.ParseImageSize(size.value, cfg).value
    ensures r.Success? && Truthy(size)
            && DimsOf(ImageUtils.DecodeBase64Image(payload, cfg, codec).value) == ImageUtils.ParseImageSize(size.value, cfg).value
            ==> r.value == ImageUtils.DecodeBase64Image(payload, cfg, codec).value
  {
    match ImageUtils.DecodeBase64Image(payload, cfg, codec)
    case Failure(e) => Failure(e)
    case Success(img) =>
      match ImageUtils.ValidateImageSize(img, cfg)
      case Fail(e) => Failure(e)
      case Pass =>
        if !Truthy(size) then Success(img)
        else
          match ImageUtils.ParseImageSize(size.value, cfg)
          case Failure(e) => Failure(e)
          case Success(target) =>
            if DimsOf(img) == target then Success(img) else ImageUtils.ResizeImage(img, target, true, codec)
  }

  /** The image a call produced can be delivered in the requested format:
      saved to a file for URLs, encoded for base64. */
  predicate Deliverable(backend: Backend, codec: Codec, format: ResponseFormat, c: Call) {
    && FluxModel.Produces(backend.infer, c)
    && var img := FluxModel.FirstImage(backend.infer(c)).value;
    && (format == Url ==> codec.persist(img).Success?)
    && (format == B64Json ==> codec.encode(img).Success?)
  }

  /** The response presents `images` in order, created at `now`: entry `i`
      is the URL of the stored file of image `i` (URL format) or its base64
      encoding (base64 format), and carries no revised prompt. */
  predicate Presents(resp: ImageResponse, images: seq<Image>, format: ResponseFormat, codec: Codec,
                     baseUrl: string, now: int) {
    && resp.created == now
    && |resp.data| == |images|
    && forall i :: 0 <= i < |images| ==>
         var d := resp.data[i];
         && (format == Url ==>
               && codec.persist(images[i]).Success?
               && d.url == Some(ImageUtils.CreateImageUrl(codec.persist(images[i]).value, baseUrl))
               && d.b64Json.None?)
         && (format == B64Json ==>
               && codec.encode(images[i]).Success?
               && d.b64Json == Some(codec.encode(images[i]).value)
               && d.url.None?)
         && d.revisedPrompt.None?
  }

  /** Every call yielded an image and the response presents those images,
      entry `i` holding the image of call `i`. */
  predicate Delivers(resp: ImageResponse, backend: Backend, calls: seq<Call>, format: ResponseFormat,
                     codec: Codec, baseUrl: string, now: int) {
    && (forall i :: 0 <= i < |calls| ==> FluxModel.Produces(backend.infer, calls[i]))
    && Presents(resp, FluxModel.Outputs(backend.infer, calls), format, codec, baseUrl, now)
  }

  /** Builds the response for the images of a successful fan-out; a file or
      encoding failure is wrapped like every other failure. */
  method Respond(run: FluxModel.Run<seq<Image>>, format: ResponseFormat, baseUrl: string, codec: Codec,
                 now: int, prefix: string) returns (r: FluxModel.Run<ImageResponse>)
    requires run.result.Success?
    ensures r.manager == run.manager && r.calls == run.calls
    ensures r.result.Success? <==>
      forall i :: 0 <= i < |run.result.value| ==>
        && (format == Url ==> codec.persist(run.result.value[i]).Success?)
        && (format == B64Json ==> codec.encode(run.result.value[i]).Success?)
    ensures r.result.Success? ==> Presents(r.result.value, run.result.value, format, codec, baseUrl, now)
    ensures r.result.Failure? ==> r.result.error.Is(GenerationError) && StartsWith(r.result.error.detail, prefix)
  {
    var response := ResponseUtils.CreateImageResponse(run.result.value, format, baseUrl, None, codec, now);
    if response.Failure? {
      return FluxModel.Run(run.manager, run.calls, Failure(Wrap(prefix, response.error)));
    }
    return FluxModel.Run(run.manager, run.calls, Success(response.value));
  }

  // ---------------------------------------------------------------------------
  // The three service operations
  // ---------------------------------------------------------------------------

  /** The request passes the service's own checks before any model call. */
  predicate GenerationAccepted(req: GenerationRequest, cfg: Config.Settings) {
    && ResponseUtils.ValidateGenerationParams(req.tuning.guidanceScale, req.tuning.numInferenceSteps, req.base.n, cfg).Pass?
    && ParseSizeField(req.base.size, cfg).Success?
  }

  /** The call made for image `i` of a generation request. */
  function GenerationCallAt(req: GenerationRequest, cfg: Config.Settings, i: nat): Call
    requires GenerationAccepted(req, cfg)
  {
    var d := ParseSizeField(req.base.size, cfg).value;
    FluxModel.GenerationCall(req.base.prompt, d.width, d.height, req.tuning.guidanceScale,
                             req.tuning.numInferenceSteps, FluxModel.SubSeed(req.tuning.seed, i))
  }

  /** `generate_images`: validates the parameters, parses the size, makes
      `n` text-to-image calls at that size and returns one entry per image.
      A rejected request makes no model call and does not touch the
      manager. */
  method GenerateImages(m: Manager, backend: Backend, codec: Codec, cfg: Config.Settings,
                        req: GenerationRequest, baseUrl: string, now: int)
    returns (r: FluxModel.Run<ImageResponse>)
    ensures !GenerationAccepted(req, cfg) ==> r.result.Failure? && r.calls == [] && r.manager == m
    ensures GenerationAccepted(req, cfg) ==>
      && r.manager == FluxModel.EnsureModelLoaded(m, backend.load).manager
      && |r.calls| <= req.base.n
      && forall i :: 0 <= i < |r.calls| ==> r.calls[i] == GenerationCallAt(req, cfg, i)
    ensures r.result.Success? <==>
      && GenerationAccepted(req, cfg)
      && FluxModel.Ready(m, backend.load)
      && forall i :: 0 <= i < req.base.n ==>
           Deliverable(backend, codec, req.base.responseFormat, GenerationCallAt(req, cfg, i))
    ensures r.result.Success? ==>
      && |r.calls| == req.base.n
      && Delivers(r.result.value, backend, r.calls, req.base.responseFormat, codec, baseUrl, now)
    ensures r.result.Failure? ==>
      r.result.error.Is(GenerationError) && StartsWith(r.result.error.detail, GeneratePrefix)
  {
    var b := req.base;
    var t := req.tuning;
    var check := ResponseUtils.ValidateGenerationParams(t.guidanceScale, t.numInferenceSteps, b.n, cfg);
    if check.Fail? {
      return FluxModel.Run(m, [], Failure(Wrap(GeneratePrefix, check.error)));
    }
    var size := ParseSizeField(b.size, cfg);
    if size.Failure? {
      return FluxModel.Run(m, [], Failure(Wrap(GeneratePrefix, size.error)));
    }
    var run := GenerateMultipleImages(m, backend, b.prompt, size.value.width, size.value.height, b.n,
                                      t.guidanceScale, t.numInferenceSteps, t.seed);
    assert forall i: nat ::
      (GenerationCallAt(req, cfg, i)
         == FluxModel.GenerationCall(b.prompt, size.value.width, size.value.height, t.guidanceScale,
                                     t.numInferenceSteps, FluxModel.SubSeed(t.seed, i)));
    if run.result.Failure? {
      return FluxModel.Run(run.manager, run.calls, Failure(Wrap(GeneratePrefix, run.result.error)));
    }
    r := Respond(run, b.responseFormat, baseUrl, codec, now, GeneratePrefix);
  }

  /** An edit request passes the service's checks and its image is usable. */
  predicate EditAccepted(req: EditRequest, cfg: Config.Settings, codec: Codec) {
    && ResponseUtils.ValidateGenerationParams(req.tuning.guidanceScale, req.tuning.numInferenceSteps, req.base.n, cfg).Pass?
    && PrepareInput(req.image, req.base.size, cfg, codec).Success?
  }

  /** The call made for image `i` of an edit request. */
  function EditCallAt(req: EditRequest, cfg: Config.Settings, codec: Codec, i: nat): Call
    requires EditAccepted(req, cfg, codec)
  {
    FluxModel.EditCall(PrepareInput(req.image, req.base.size, cfg, codec).value, req.base.prompt,
                       req.tuning.guidanceScale, req.tuning.numInferenceSteps, FluxModel.SubSeed(req.tuning.seed, i))
  }

  /** `edit_image`: validates the parameters, prepares the input image and
      makes `n` edits of it. */
  method EditImage(m: Manager, backend: Backend, codec: Codec, cfg: Config.Settings,
                   req: EditRequest, baseUrl: string, now: int)
    returns (r: FluxModel.Run<ImageResponse>)
    ensures !EditAccepted(req, cfg, codec) ==> r.result.Failure? && r.calls == [] && r.manager == m
    ensures EditAccepted(req, cfg, codec) ==>
      && r.manager == FluxModel.EnsureModelLoaded(m, backend.load).manager
      && |r.calls| <= req.base.n
      && forall i :: 0 <= i < |r.calls| ==> r.calls[i] == EditCallAt(req, cfg, codec, i)
    ensures r.result.Success? <==>
      && EditAccepted(req, cfg, codec)
      && FluxModel.Ready(m, backend.load)
      && forall i :: 0 <= i < req.base.n ==>
           Deliverable(backend, codec, req.base.responseFormat, EditCallAt(req, cfg, codec, i))
    ensures r.result.Success? ==>
      && |r.calls| == req.base.n
      && Delivers(r.result.value, backend, r.calls, req.base.responseFormat, codec, baseUrl, now)
    ensures r.result.Failure? ==>
      r.result.error.Is(GenerationError) && StartsWith(r.result.error.detail, EditPrefix)
  {
    var b := req.base;
    var t := req.tuning;
    var check := ResponseUtils.ValidateGenerationParams(t.guidanceScale, t.numInferenceSteps, b.n, cfg);
    if check.Fail? {
      return FluxModel.Run(m, [], Failure(Wrap(EditPrefix, check.error)));
    }
    var input := PrepareInput(req.image, b.size, cfg, codec);
    if input.Failure? {
      return FluxModel.Run(m, [], Failure(Wrap(EditPrefix, input.error)));
    }
    var run := EditMultipleImages(m, backend, input.value, b.prompt, b.n, t.guidanceScale, t.numInferenceSteps, t.seed);
    assert forall i: nat ::
      (EditCallAt(req, cfg, codec, i)
         == FluxModel.EditCall(input.value, b.prompt, t.guidanceScale, t.numInferenceSteps, FluxModel.SubSeed(t.seed, i)));
    if run.result.Failure? {
      return FluxModel.Run(run.manager, run.calls, Failure(Wrap(EditPrefix, run.result.error)));
    }
    r := Respond(run, b.responseFormat, baseUrl, codec, now, EditPrefix);
  }

  /** A variation request passes the service's checks and its image is usable. */
  predicate VariationAccepted(req: VariationRequest, cfg: Config.Settings, codec: Codec) {
    && ResponseUtils.ValidateGenerationParams(req.tuning.guidanceScale, req.tuning.numInferenceSteps, req.base.n, cfg).Pass?
    && PrepareInput(req.image, req.base.size, cfg, codec).Success?
  }

  /** The call made for variation `i`, prompted with `prompt`. */
  function VariationCallAt(req: VariationRequest, cfg: Config.Settings, codec: Codec, prompt: string, i: nat): Call
    requires VariationAccepted(req, cfg, codec)
  {
    FluxModel.VariationCall(PrepareInput(req.image, req.base.size, cfg, codec).value, prompt,
                            req.tuning.guidanceScale, req.tuning.numInferenceSteps, FluxModel.SubSeed(req.tuning.seed, i))
  }

  /** `generate_variations` with the prompt list the fan-out expects given
      explicitly (the request record has no such field): one variation per
      prompt. `n` is still validated although it does not decide the count. */
  method GenerateVariations(m: Manager, backend: Backend, codec: Codec, cfg: Config.Settings,
                            req: VariationRequest, prompts: seq<string>, baseUrl: string, now: int)
    returns (r: FluxModel.Run<ImageResponse>)
    ensures !VariationAccepted(req, cfg, codec) ==> r.result.Failure? && r.calls == [] && r.manager == m
    ensures VariationAccepted(req, cfg, codec) ==>
      && |r.calls| <= |prompts|
      && forall i :: 0 <= i < |r.calls| ==> r.calls[i] == VariationCallAt(req, cfg, codec, prompts[i], i)
    ensures r.result.Success? <==>
      && VariationAccepted(req, cfg, codec)
      && (prompts == [] || FluxModel.Ready(m, backend.load))
      && forall i :: 0 <= i < |prompts| ==>
           Deliverable(backend, codec, req.base.responseFormat, VariationCallAt(req, cfg, codec, prompts[i], i))
    ensures r.result.Success? ==>
      && |r.calls| == |prompts|
      && Delivers(r.result.value, backend, r.calls, req.base.responseFormat, codec, baseUrl, now)
    ensures r.result.Failure? ==>
      r.result.error.Is(GenerationError) && StartsWith(r.result.error.detail, VariationsPrefix)
  {
    var b := req.base;
    var t := req.tuning;
    var check := ResponseUtils.ValidateGenerationParams(t.guidanceScale, t.numInferenceSteps, b.n, cfg);
    if check.Fail? {
      return FluxModel.Run(m, [], Failure(Wrap(VariationsPrefix, check.error)));
    }
    var input := PrepareInput(req.image, b.size, cfg, codec);
    if input.Failure? {
      return FluxModel.Run(m, [], Failure(Wrap(VariationsPrefix, input.error)));
    }
    var run := GenerateImageVariations(m, backend, input.value, prompts, t.guidanceScale, t.numInferenceSteps,
                                       req.variationStrength, t.seed);
    if run.result.Failure? {
      return FluxModel.Run(run.manager, run.calls, Failure(Wrap(VariationsPrefix, run.result.error)));
    }
    r := Respond(run, b.responseFormat, baseUrl, codec, now, VariationsPrefix);
  }

  /** The attribute error reading the missing `prompts` field raises. */
  const MissingPrompts := Unexpected("'ImageVariationRequest' object has no attribute 'prompts'")

  /** `generate_variations` as written: after validation and input
      preparation it reads `request.prompts`, a field the request record
      does not declare, so every request fails before any model call. */
  method GenerateVariationsAsWritten(m: Manager, backend: Backend, codec: Codec, cfg: Config.Settings,
                                     req: VariationRequest, baseUrl: string, now: int)
    returns (r: FluxModel.Run<ImageResponse>)
    ensures r.result.Failure? && r.calls == [] && r.manager == m
    ensures r.result.error.Is(GenerationError) && StartsWith(r.result.error.detail, VariationsPrefix)
    ensures VariationAccepted(req, cfg, codec) ==> r.result.error == Wrap(VariationsPrefix, MissingPrompts)
  {
    var b := req.base;
    var t := req.tuning;
    var check := ResponseUtils.ValidateGenerationParams(t.guidanceScale, t.numInferenceSteps, b.n, cfg);
    if check.Fail? {
      return FluxModel.Run(m, [], Failure(Wrap(VariationsPrefix, check.error)));
    }
    var input := PrepareInput(req.image, b.size, cfg, codec);
    if input.Failure? {
      return FluxModel.Run(m, [], Failure(Wrap(VariationsPrefix, input.error)));
    }
    return FluxModel.Run(m, [], Failure(Wrap(VariationsPrefix, MissingPrompts)));
  }
}

=== FILE: image_utils.dfy ===
/** The image utilities at the edge of the service: decoding a base64
    payload under a byte ceiling and a format whitelist, checking and
    parsing image sizes, aspect-preserving resizing onto a padded canvas,
    and turning a stored file into a public URL. */
module ImageUtils {
  import opened Results
  import opened Text
  import opened Imaging
  import opened Exceptions
  import Config

  // ---------------------------------------------------------------------------
  // decode_base64_image
  // ---------------------------------------------------------------------------

  /** Container formats accepted after lower-casing. */
  const AcceptedFormats: set<string> := {"jpeg", "jpg", "png", "webp"}

  /** The bytes the decoder yields for a payload, after the data-URL prefix
      is stripped; `None` when either step raises. */
  function DecodedBytes(s: string, codec: Codec): Option<seq<Byte>> {
    match StripDataUrl(s)
    case Failure(_) => None
    case Success(payload) =>
      match codec.b64decode(payload)
      case Failure(_) => None
      case Success(bytes) => Some(bytes)
  }

  /** Any failure other than the two image errors is reported as an invalid format. */
  function DecodeFailure(why: string): Error {
    Raise(InvalidImageFormat, "Failed to decode base64 image: " + why)
  }

  /** The image a payload decodes to: strip a data-URL prefix, decode base64,
      refuse more than `maxFileSize` bytes before parsing, parse, and accept
      only JPEG, PNG and WebP containers. Only `InvalidImageFormat` and
      `ImageTooLarge` come out. */
  function DecodeBase64Image(s: string, cfg: Config.Settings, codec: Codec): (r: Result<Image, Error>)
    ensures r.Failure? ==> r.error.Is(InvalidImageFormat) || r.error.Is(ImageTooLarge)
    ensures (r.Failure? && r.error.Is(ImageTooLarge)) <==>
      (DecodedBytes(s, codec).Some? && |DecodedBytes(s, codec).value| > cfg.maxFileSize)
    ensures r.Success? <==>
      var bytes := DecodedBytes(s, codec);
      && bytes.Some?
      && |bytes.value| <= cfg.maxFileSize
      && codec.open(bytes.value).Success?
      && codec.open(bytes.value).value.format.Some?
      && LowerAscii(codec.open(bytes.value).value.format.value) in AcceptedFormats
    ensures r.Success? ==> r.value == codec.open(DecodedBytes(s, codec).value).value
  {
    match StripDataUrl(s)
    case Failure(why) => Failure(DecodeFailure(why))
    case Success(payload) =>
      match codec.b64decode(payload)
      case Failure(why) => Failure(DecodeFailure(why))
      case Success(bytes) =>
        if |bytes| > cfg.maxFileSize then
          Failure(Raise(ImageTooLarge, "Image size " + IntToString(|bytes|) + " exceeds maximum "
                                       + IntToString(cfg.maxFileSize) + " bytes"))
        else
          match codec.open(bytes)
          case Failure(why) => Failure(DecodeFailure(why))
          case Success(img) =>
            match img.format
            case None => Failure(DecodeFailure("'NoneType' object has no attribute 'lower'"))
            case Some(f) =>
              if LowerAscii(f) in AcceptedFormats then Success(img)
              else Failure(Raise(InvalidImageFormat, "Unsupported image format: " + f))
  }

  /** The byte ceiling is applied before any parsing: for an oversized
      payload the result is the same whatever the image parser would do. */
  lemma OversizedPayloadNeverParsed(s: string, cfg: Config.Settings, codec: Codec, otherOpen: ImageOpener)
    requires DecodedBytes(s, codec).Some? && |DecodedBytes(s, codec).value| > cfg.maxFileSize
    ensures DecodeBase64Image(s, cfg, codec) == DecodeBase64Image(s, cfg, codec.(open := otherOpen))
    ensures DecodeBase64Image(s, cfg, codec).Failure?
  {
  }

  // ---------------------------------------------------------------------------
  // validate_image_size
  // ---------------------------------------------------------------------------

  predicate DimsInRange(width: int, height: int, cfg: Config.Settings) {
    cfg.minImageSize <= width <= cfg.maxImageSize && cfg.minImageSize <= height <= cfg.maxImageSize
  }

  function TooSmallMessage(img: Image, cfg: Config.Settings): string {
    "Image size " + IntToString(img.width) + "x" + IntToString(img.height)
    + " is too small. Minimum size is " + IntToString(cfg.minImageSize) + "x" + IntToString(cfg.minImageSize)
  }

  function TooLargeMessage(img: Image, cfg: Config.Settings): string {
    "Image size " + IntToString(img.width) + "x" + IntToString(img.height)
    + " is too large. Maximum size is " + IntToString(cfg.maxImageSize) + "x" + IntToString(cfg.maxImageSize)
  }

  /** An image is accepted iff both sides lie in `[min, max]`; a side below
      the minimum is reported as too small even when the other side is also
      above the maximum. */
  function ValidateImageSize(img: Image, cfg: Config.Settings): (r: Outcome<Error>)
    ensures r.Pass? <==> DimsInRange(img.width, img.height, cfg)
    ensures r.Fail? ==> r.error.Is(InvalidImageFormat)
    ensures img.width < cfg.minImageSize || img.height < cfg.minImageSize ==>
      r == Fail(Raise(InvalidImageFormat, TooSmallMessage(img, cfg)))
    ensures r.Fail? && img.width >= cfg.minImageSize && img.height >= cfg.minImageSize ==>
      r == Fail(Raise(InvalidImageFormat, TooLargeMessage(img, cfg)))
  {
    if img.width < cfg.minImageSize || img.height < cfg.minImageSize then
      Fail(Raise(InvalidImageFormat, TooSmallMessage(img, cfg)))
    else if img.width > cfg.maxImageSize || img.height > cfg.maxImageSize then
      Fail(Raise(InvalidImageFormat, TooLargeMessage(img, cfg)))
    else Pass
  }

  // ---------------------------------------------------------------------------
  // parse_image_size
  // ---------------------------------------------------------------------------

  function SizeFailure(s: string, why: string): Error {
    Raise(InvalidImageFormat, "Invalid image size format '" + s + "': " + why)
  }

  /** Parses `"WxH"`: exactly one lower-case `x`, two `int()`-readable parts,
      each inside `[min, max]`. Every failure is an `InvalidImageFormat`. */
  function ParseImageSize(s: string, cfg: Config.Settings): (r: Result<Dims, Error>)
    ensures r.Failure? ==> r.error.Is(InvalidImageFormat)
    ensures r.Failure? ==> StartsWith(r.error.detail, "Invalid image size format '" + s + "': ")
    ensures r.Success? ==> DimsInRange(r.value.width, r.value.height, cfg)
    ensures r.Success? ==>
      && 'x' in s
      && var k := IndexOf(s, 'x');
      && 'x' !in s[k + 1..]
      && ParseInt(s[..k]) == Some(r.value.width as int)
      && ParseInt(s[k + 1..]) == Some(r.value.height as int)
  {
    if 'x' !in s then Failure(SizeFailure(s, "Invalid size format"))
    else
      var parts := Split(s, 'x');
      if |parts| != 2 then Failure(SizeFailure(s, "too many values to unpack (expected 2)"))
      else
        match ParseInt(parts[0])
        case None => Failure(SizeFailure(s, "invalid literal for int() with base 10: '" + parts[0] + "'"))
        case Some(width) =>
          match ParseInt(parts[1])
          case None => Failure(SizeFailure(s, "invalid literal for int() with base 10: '" + parts[1] + "'"))
          case Some(height) =>
            if width < cfg.minImageSize || height < cfg.minImageSize then
              Failure(SizeFailure(s, "Size too small. Minimum: " + IntToString(cfg.minImageSize)
                                     + "x" + IntToString(cfg.minImageSize)))
            else if width > cfg.maxImageSize || height > cfg.maxImageSize then
              Failure(SizeFailure(s, "Size too large. Maximum: " + IntToString(cfg.maxImageSize)
                                     + "x" + IntToString(cfg.maxImageSize)))
            else
              SplitTwoPieces(s);
              Success(Dims(width, height))
  }

  /** When `s.split('x')` has exactly two pieces they are the text on either
      side of the one `x`. */
  lemma SplitTwoPieces(s: string)
    requires 'x' in s && |Split(s, 'x')| == 2
    ensures var k := IndexOf(s, 'x');
      && Split(s, 'x') == [s[..k], s[k + 1..]]
      && 'x' !in s[k + 1..]
  {
    var k := IndexOf(s, 'x');
    var rest := s[k + 1..];
    assert Split(s, 'x') == [s[..k]] + Split(rest, 'x');
  }

  /** Completeness: text of the form `a + "x" + b` with `int()`-readable
      sides is accepted exactly when both values are in range, and then
      yields those values. */
  lemma ParseImageSizeAccepts(a: string, b: string, cfg: Config.Settings)
    requires 'x' !in a && 'x' !in b
    requires ParseInt(a).Some? && ParseInt(b).Some?
    ensures var r := ParseImageSize(a + "x" + b, cfg);
      && (r.Success? <==> DimsInRange(ParseInt(a).value, ParseInt(b).value, cfg))
      && (r.Success? ==> r.value == Dims(ParseInt(a).value, ParseInt(b).value))
  {
    var s := a + "x" + b;
    assert s == a + ['x'] + b;
    SplitAtFirst(a, 'x', b);
    assert s[|a|] == 'x';
  }

  /** The canonical `"WxH"` text of a size. */
  function FormatDims(d: Dims): string {
    NatToString(d.width) + "x" + NatToString(d.height)
  }

  /** Parsing the canonical text of an in-range size gives that size back. */
  lemma ParseFormatDimsRoundTrip(d: Dims, cfg: Config.Settings)
    requires DimsInRange(d.width, d.height, cfg)
    ensures ParseImageSize(FormatDims(d), cfg) == Success(d)
  {
    NatToStringHasNo(d.width, 'x');
    NatToStringHasNo(d.height, 'x');
    IntToStringRoundTrip(d.width);
    IntToStringRoundTrip(d.height);
    ParseImageSizeAccepts(NatToString(d.width), NatToString(d.height), cfg);
  }

  /** An upper-case separator is not a separator: `"1024X1024"` is refused. */
  lemma UpperCaseSeparatorRejected(cfg: Config.Settings)
    ensures ParseImageSize("1024X1024", cfg).Failure?
  {
    assert 'x' !in "1024X1024";
  }

  /** With the shipped bounds, `"100x100"` is refused as too small. */
  lemma DefaultBoundsRejectSmall()
    ensures ParseImageSize("100x100", Config.Defaults).Failure?
  {
    assert NatToString(100) == "100" by {
      assert NatToString(1) == "1";
      assert NatToString(10) == "10";
    }
    IntToStringRoundTrip(100);
    assert "100" + "x" + "100" == "100x100";
    ParseImageSizeAccepts("100", "100", Config.Defaults);
  }

  /** With the shipped bounds, `"1024x1024"` is accepted. */
  lemma DefaultBoundsAcceptSquare()
    ensures ParseImageSize("1024x1024", Config.Defaults) == Success(Dims(1024, 1024))
  {
    assert NatToString(1024) == "1024" by {
      assert NatToString(1) == "1";
      assert NatToString(10) == "10";
      assert NatToString(102) == "102";
    }
    assert FormatDims(Dims(1024, 1024)) == "1024x1024";
    ParseFormatDimsRoundTrip(Dims(1024, 1024), Config.Defaults);
  }

  // ---------------------------------------------------------------------------
  // resize_image
  // ---------------------------------------------------------------------------

  /** Where an `inner`-long side is pasted to centre it in an `outer`-long
      side: `(outer - inner) // 2`. */
  function PasteOffset(outer: nat, inner: nat): (x: int)
    ensures inner <= outer ==> 0 <= x && x + inner <= outer
    ensures inner <= outer ==> var right := outer - inner - x; x <= right <= x + 1
  {
    var x := (outer - inner) / 2;
    assert 2 * x <= outer - inner <= 2 * x + 1;
    x
  }

  function ResizeFailure(why: string): Error {
    Raise(ImageProcessingError, "Failed to resize image: " + why)
  }

  /** Resizes to `target`. Preserving the aspect ratio, the image is
      thumbnailed to fit and, unless that already hits the target exactly,
      pasted centred onto a white RGB canvas of the target size; otherwise
      it is resampled directly. Library failures become
      `ImageProcessingError`. */
  function ResizeImage(img: Image, target: Dims, keepAspect: bool, codec: Codec): (r: Result<Image, Error>)
    ensures r.Failure? ==> r.error.Is(ImageProcessingError)
    ensures keepAspect ==> (r.Success? <==> codec.thumbnail(img, target).Success?)
    ensures keepAspect && r.Success? ==> DimsOf(r.value) == target
    ensures keepAspect && r.Success? && DimsOf(codec.thumbnail(img, target).value) != target ==>
      var t := codec.thumbnail(img, target).value;
      && r.value.mode == "RGB"
      && r.value.pixels == Padded(White, t, PasteOffset(target.width, t.width), PasteOffset(target.height, t.height))
    ensures !keepAspect ==> r == (match codec.resample(img, target)
                                   case Success(t) => Success(t)
                                   case Failure(why) => Failure(ResizeFailure(why)))
  {
    if keepAspect then
      match codec.thumbnail(img, target)
      case Failure(why) => Failure(ResizeFailure(why))
      case Success(t) =>
        if DimsOf(t) != target then
          Success(Image(target.width, target.height, "RGB", None,
                        Padded(White, t, PasteOffset(target.width, t.width), PasteOffset(target.height, t.height))))
        else Success(t)
    else
      match codec.resample(img, target)
      case Failure(why) => Failure(ResizeFailure(why))
      case Success(t) => Success(t)
  }

  /** A thumbnail no larger than the target that does not already hit it is
      pasted wholly inside the canvas. */
  lemma PaddedThumbnailFits(img: Image, target: Dims, codec: Codec)
    requires codec.thumbnail(img, target).Success?
    requires var t := codec.thumbnail(img, target).value;
      t.width <= target.width && t.height <= target.height && DimsOf(t) != target
    ensures var r := ResizeImage(img, target, true, codec);
      && r.Success?
      && r.value.pixels.Padded?
      && var p := r.value.pixels;
      && p.inner == codec.thumbnail(img, target).value
      && 0 <= p.x && p.x + p.inner.width <= r.value.width
      && 0 <= p.y && p.y + p.inner.height <= r.value.height
  {
  }

  /** With a thumbnailer that keeps to PIL's promise, a thumbnail that
      misses the target is padded onto a canvas of exactly the target size
      and lies wholly inside it. */
  lemma ResizePadsWithinCanvas(img: Image, target: Dims, codec: Codec)
    requires ThumbnailFits(codec)
    ensures var thumb := codec.thumbnail(img, target);
      thumb.Success? && DimsOf(thumb.value) != target ==>
        var r := ResizeImage(img, target, true, codec);
        && r.Success?
        && DimsOf(r.value) == target
        && r.value.pixels.Padded?
        && var p := r.value.pixels;
        && p.inner == thumb.value
        && 0 <= p.x && p.x + p.inner.width <= r.value.width
        && 0 <= p.y && p.y + p.inner.height <= r.value.height
  {
    var thumb := codec.thumbnail(img, target);
    if thumb.Success? && DimsOf(thumb.value) != target {
      assert thumb.value.width <= target.width && thumb.value.height <= target.height;
      PaddedThumbnailFits(img, target, codec);
    }
  }

  // ---------------------------------------------------------------------------
  // create_image_url
  // ---------------------------------------------------------------------------

  /** Windows path separators turned into URL separators. */
  function Slashes(s: string): string {
    ReplaceChar(s, '\\', '/')
  }

  /** The public URL of a stored file: `base_url + "/static/" + path`, with
      every backslash (in either part) replaced by `/`. */
  function CreateImageUrl(relativePath: string, baseUrl: string): (url: string)
    ensures '\\' !in url
    ensures url == Slashes(baseUrl) + "/static/" + Slashes(relativePath)
  {
    var joined := baseUrl + "/static/" + relativePath;
    var url := Slashes(joined);
    assert url == Slashes(baseUrl) + "/static/" + Slashes(relativePath) by {
      var n := |baseUrl|;
      assert forall i :: 0 <= i < n ==> joined[i] == baseUrl[i];
      assert forall i :: n + 8 <= i < |joined| ==> joined[i] == relativePath[i - n - 8];
    }
    url
  }
}

=== FILE: imaging.dfy ===
/** In-memory images as the core sees them: dimensions, colour mode, the
    container format they were read from, and opaque pixel content. The
    image library's work (base64, parsing, thumbnailing, resampling,
    persistence, encoding) enters only through the function types below. */
module Imaging {
  import opened Results
  import Text

  type Byte = x: int | 0 <= x < 256

  datatype Rgb = Rgb(red: int, green: int, blue: int)

  /** The fill colour of a padded canvas. */
  const White := Rgb(255, 255, 255)

  /** Opaque pixel content, with just enough structure to say where an image
      came from. */
  datatype Pixels =
      /** Pixels produced by a collaborator (decoder, model, resampler). */
    | Opaque(token: int)
      /** Pixels of `source` converted to another colour mode. */
    | Converted(source: Pixels, mode: string)
      /** A `fill`-coloured canvas with `inner` pasted at offset (`x`, `y`). */
    | Padded(fill: Rgb, inner: Image, x: int, y: int)

  /** A decoded or generated image; `format` is the container it was read
      from (`None` for images made in memory). */
  datatype Image = Image(width: nat, height: nat, mode: string, format: Option<string>, pixels: Pixels)

  /** A target size `(width, height)`. */
  datatype Dims = Dims(width: nat, height: nat)

  function DimsOf(img: Image): Dims {
    Dims(img.width, img.height)
  }

  /** `base64.b64decode`: the bytes, or the text of the error it raises. */
  type Base64Decoder = string -> Result<seq<Byte>, string>
  /** `Image.open`: a parsed image, or the text of the error it raises. */
  type ImageOpener = seq<Byte> -> Result<Image, string>
  /** `Image.verify` on an opened image: passes, or the text of the error it
      raises for a damaged file (a truncated stream, a bad checksum). */
  type ImageVerifier = Image -> Outcome<string>
  /** `Image.thumbnail` / `Image.resize`: the resampled image or an error text.
      `ThumbnailFits` states what PIL promises of the thumbnail. */
  type Resampler = (Image, Dims) -> Result<Image, string>
  /** Saving an image under the static root: its path relative to that root.
      A pure function of the image: the random file name is not modelled. */
  type Persister = Image -> Result<string, string>
  /** PNG-encoding an image to base64 text. */
  type Encoder = Image -> Result<string, string>

  /** The library collaborators the image utilities call. */
  datatype Codec = Codec(
    b64decode: Base64Decoder,
    open: ImageOpener,
    verify: ImageVerifier,
    thumbnail: Resampler,
    resample: Resampler,
    persist: Persister,
    encode: Encoder
  )

  /** What PIL's `thumbnail` promises: the result fits inside the target
      and is never larger than the input, side by side. */
  ghost predicate ThumbnailFits(codec: Codec) {
    forall img: Image, target: Dims ::
      var out := codec.thumbnail(img, target);
      out.Success? ==>
        && out.value.width <= target.width && out.value.height <= target.height
        && out.value.width <= img.width && out.value.height <= img.height
  }

  /** `image.convert('RGB')` when the mode is not already RGB: same size,
      RGB mode, no container format. */
  function ToRgb(img: Image): (r: Image)
    ensures DimsOf(r) == DimsOf(img)
    ensures r.mode == "RGB"
    ensures img.mode == "RGB" ==> r == img
  {
    if img.mode == "RGB" then img
    else Image(img.width, img.height, "RGB", None, Converted(img.pixels, "RGB"))
  }

  const DataUrlPrefix := "data:image"

  /** The payload of a possibly data-URL-wrapped base64 string: a string
      starting with `data:image` is replaced by `s.split(',')[1]`, the text
      between its first and second comma; without a comma that index raises
      `IndexError`. */
  function StripDataUrl(s: string): (r: Result<string, string>)
    ensures !Text.StartsWith(s, DataUrlPrefix) ==> r == Success(s)
    ensures Text.StartsWith(s, DataUrlPrefix) ==> (r.Success? <==> ',' in s)
    ensures r.Success? && Text.StartsWith(s, DataUrlPrefix) ==>
      var rest := s[Text.IndexOf(s, ',') + 1..];
      && ',' !in r.value
      && Text.StartsWith(rest, r.value)
      && (|r.value| == |rest| || rest[|r.value|] == ',')
  {
    if Text.StartsWith(s, DataUrlPrefix) then
      var parts := Text.Split(s, ',');
      if |parts| < 2 then Failure("list index out of range")
      else
        StripDataUrlPiece(s);
        Success(parts[1])
    else Success(s)
  }

  /** The second piece of `s.split(',')` is the text after the first comma,
      up to the next comma or the end. */
  lemma StripDataUrlPiece(s: string)
    ensures (|Text.Split(s, ',')| >= 2) <==> ',' in s
    ensures ',' in s ==>
      var rest := s[Text.IndexOf(s, ',') + 1..];
      var piece := Text.Split(s, ',')[1];
      && Text.StartsWith(rest, piece)
      && (|piece| == |rest| || rest[|piece|] == ',')
  {
    if ',' in s {
      var rest := s[Text.IndexOf(s, ',') + 1..];
      assert Text.Split(s, ',')[1] == Text.Split(rest, ',')[0];
      Text.SplitFirstPiece(rest, ',');
    }
  }
}

=== FILE: response_utils.dfy ===
/** Response assembly and the small helpers around it: building the `data`
    entries index-aligned with the produced images (stored-file URL or
    inline base64), single and batch responses, the service-level parameter
    check, filename sanitising, base-URL derivation and the error body. */
module ResponseUtils {
  import opened Results
  import opened Text
  import opened Imaging
  import opened Exceptions
  import opened Schemas
  import ImageUtils
  import Config

  // ---------------------------------------------------------------------------
  // create_image_response
  // ---------------------------------------------------------------------------

  /** Revised prompt `i` is attached iff a non-empty list was given and it
      has an `i`-th element. */
  function RevisedPromptAt(revised: Option<seq<string>>, i: nat): (r: Option<string>)
    ensures r.Some? <==> revised.Some? && |revised.value| > 0 && i < |revised.value|
    ensures r.Some? ==> r.value == revised.value[i]
  {
    if revised.Some? && |revised.value| > 0 && i < |revised.value| then Some(revised.value[i]) else None
  }

  /** The entry for image `i`: a URL of the stored file, or the inline
      base64 PNG, plus the revised prompt. */
  function EntryFor(image: Image, i: nat, format: ResponseFormat, baseUrl: string,
                    revised: Option<seq<string>>, codec: Codec): Result<ImageData, Error>
  {
    match format
    case Url =>
      (match codec.persist(image)
       case Failure(why) => Failure(Raise(ImageProcessingError, "Failed to save image: " + why))
       case Success(path) =>
         Success(ImageData(Some(ImageUtils.CreateImageUrl(path, baseUrl)), None, RevisedPromptAt(revised, i))))
    case B64Json =>
      (match codec.encode(image)
       case Failure(why) => Failure(Raise(ImageProcessingError, "Failed to encode image to base64: " + why))
       case Success(text) => Success(ImageData(None, Some(text), RevisedPromptAt(revised, i))))
  }

  /** The entries for `images`, the first of which is image number `start`;
      the first failing image aborts the whole list. */
  function Entries(images: seq<Image>, start: nat, format: ResponseFormat, baseUrl: string,
                   revised: Option<seq<string>>, codec: Codec): (r: Result<seq<ImageData>, Error>)
    ensures r.Success? <==>
      forall i :: 0 <= i < |images| ==> EntryFor(images[i], start + i, format, baseUrl, revised, codec).Success?
    ensures r.Success? ==>
      && |r.value| == |images|
      && forall i :: 0 <= i < |images| ==>
           r.value[i] == EntryFor(images[i], start + i, format, baseUrl, revised, codec).value
    ensures r.Failure? ==>
      exists j :: 0 <= j < |images|
        && EntryFor(images[j], start + j, format, baseUrl, revised, codec) == Failure(r.error)
    decreases |images|
  {
    if images == [] then Success([])
    else
      match EntryFor(images[0], start, format, baseUrl, revised, codec)
      case Failure(e) => Failure(e)
      case Success(entry) =>
        match Entries(images[1..], start + 1, format, baseUrl, revised, codec)
        case Failure(e) => Failure(e)
        case Success(rest) => Success([entry] + rest)
  }

  /** Builds the response for `images`: one entry per image in the same
      order; in URL format each entry has a URL and no inline data, in
      base64 format the reverse; `created` is the current time. Storage or
      encoding failures surface as `ImageProcessingError`. */
  function CreateImageResponse(images: seq<Image>, format: ResponseFormat, baseUrl: string,
                               revised: Option<seq<string>>, codec: Codec, now: int): (r: Result<ImageResponse, Error>)
    ensures r.Failure? ==> r.error.Is(ImageProcessingError)
    ensures r.Success? <==>
      forall i :: 0 <= i < |images| ==>
        (format == Url ==> codec.persist(images[i]).Success?)
        && (format == B64Json ==> codec.encode(images[i]).Success?)
    ensures r.Success? ==>
      && r.value.created == now
      && |r.value.data| == |images|
      && forall i :: 0 <= i < |images| ==>
        var d := r.value.data[i];
        && (format == Url ==>
              d.url == Some(ImageUtils.CreateImageUrl(codec.persist(images[i]).value, baseUrl)) && d.b64Json.None?)
        && (format == B64Json ==>
              d.b64Json == Some(codec.encode(images[i]).value) && d.url.None?)
        && d.revisedPrompt == RevisedPromptAt(revised, i)
  {
    match Entries(images, 0, format, baseUrl, revised, codec)
    case Failure(e) => Failure(e)
    case Success(data) => Success(ImageResponse(now, data))
  }

  /** The response for one image, with its revised prompt only when that
      prompt is a non-empty string. */
  function CreateSingleImageResponse(image: Image, format: ResponseFormat, baseUrl: string,
                                     revisedPrompt: Option<string>, codec: Codec, now: int): (r: Result<ImageResponse, Error>)
    ensures r.Success? ==> |r.value.data| == 1
    ensures r.Success? ==>
      r.value.data[0].revisedPrompt == (if revisedPrompt.Some? && revisedPrompt.value != "" then revisedPrompt else None)
    ensures r.Success? <==>
      (format == Url ==> codec.persist(image).Success?) && (format == B64Json ==> codec.encode(image).Success?)
    ensures r.Failure? ==> r.error.Is(ImageProcessingError)
  {
    var revised := if revisedPrompt.Some? && revisedPrompt.value != "" then Some([revisedPrompt.value]) else None;
    CreateImageResponse([image], format, baseUrl, revised, codec, now)
  }

  /** One response per batch, in batch order; the first failing batch aborts.
      Each batch reads the clock afresh: `nows[i]` is the time batch `i` sees. */
  function CreateBatchResponse(batches: seq<seq<Image>>, format: ResponseFormat, baseUrl: string,
                               codec: Codec, nows: seq<int>): (r: Result<seq<ImageResponse>, Error>)
    requires |nows| == |batches|
    ensures r.Success? <==>
      forall i :: 0 <= i < |batches| ==> CreateImageResponse(batches[i], format, baseUrl, None, codec, nows[i]).Success?
    ensures r.Success? ==>
      && |r.value| == |batches|
      && forall i :: 0 <= i < |batches| ==>
           && r.value[i] == CreateImageResponse(batches[i], format, baseUrl, None, codec, nows[i]).value
           && |r.value[i].data| == |batches[i]|
           && r.value[i].created == nows[i]
    ensures r.Failure? ==> r.error.Is(ImageProcessingError)
    decreases |batches|
  {
    if batches == [] then Success([])
    else
      match CreateImageResponse(batches[0], format, baseUrl, None, codec, nows[0])
      case Failure(e) => Failure(e)
      case Success(first) =>
        match CreateBatchResponse(batches[1..], format, baseUrl, codec, nows[1..])
        case Failure(e) => Failure(e)
        case Success(rest) => Success([first] + rest)
  }

  // ---------------------------------------------------------------------------
  // validate_generation_params
  // ---------------------------------------------------------------------------

  predicate GuidanceInRange(guidance: real) {
    1.0 <= guidance <= 10.0
  }

  function StepsMessage(steps: int, cfg: Config.Settings): string {
    "num_inference_steps must be between 1 and " + IntToString(cfg.maxNumInferenceSteps) + ", got " + IntToString(steps)
  }

  function CountMessage(n: int, cfg: Config.Settings): string {
    "n must be between 1 and " + IntToString(cfg.maxBatchSize) + ", got " + IntToString(n)
  }

  const GuidanceMessage := "guidance_scale must be between 1.0 and 10.0"

  /** The service's own parameter check: guidance in `[1.0, 10.0]`, steps in
      `[1, max steps]`, count in `[1, max batch]`, checked in that order and
      reported as `InvalidParameters` naming the first offender. */
  function ValidateGenerationParams(guidance: real, steps: int, n: int, cfg: Config.Settings): (r: Outcome<Error>)
    ensures r.Pass? <==>
      GuidanceInRange(guidance) && 1 <= steps <= cfg.maxNumInferenceSteps && 1 <= n <= cfg.maxBatchSize
    ensures r.Fail? ==> r.error.Is(InvalidParameters)
    ensures !GuidanceInRange(guidance) ==> r == Fail(Raise(InvalidParameters, GuidanceMessage))
    ensures GuidanceInRange(guidance) && !(1 <= steps <= cfg.maxNumInferenceSteps) ==>
      r == Fail(Raise(InvalidParameters, StepsMessage(steps, cfg)))
    ensures GuidanceInRange(guidance) && 1 <= steps <= cfg.maxNumInferenceSteps && !(1 <= n <= cfg.maxBatchSize) ==>
      r == Fail(Raise(InvalidParameters, CountMessage(n, cfg)))
  {
    if !GuidanceInRange(guidance) then Fail(Raise(InvalidParameters, GuidanceMessage))
    else if !(1 <= steps <= cfg.maxNumInferenceSteps) then Fail(Raise(InvalidParameters, StepsMessage(steps, cfg)))
    else if !(1 <= n <= cfg.maxBatchSize) then Fail(Raise(InvalidParameters, CountMessage(n, cfg)))
    else Pass
  }

  /** A count the request schema admits (up to 10) can still be refused by
      the service's batch ceiling (4 by default). */
  lemma SchemaCountAboveServiceCeiling()
    ensures var n := 5;
      && 1 <= n <= MaxImagesPerRequest
      && ValidateGenerationParams(DefaultGuidanceScale, DefaultInferenceSteps, n, Config.Defaults).Fail?
  {
  }

  // ---------------------------------------------------------------------------
  // sanitize_filename
  // ---------------------------------------------------------------------------

  const UnsafeChars: set<char> := {'<', '>', ':', '"', '/', '\\', '|', '?', '*'}

  /** Every unsafe character replaced by `_`. */
  function ReplaceUnsafe(s: string): (r: string)
    ensures |r| == |s|
    ensures NoUnsafe(r)
    ensures forall i :: 0 <= i < |s| ==> r[i] == (if s[i] in UnsafeChars then '_' else s[i])
  {
    if s == [] then [] else [if s[0] in UnsafeChars then '_' else s[0]] + ReplaceUnsafe(s[1..])
  }

  const MaxFilenameLength := 100
  const KeptStemLength := 95

  predicate NoUnsafe(s: string) {
    forall i :: 0 <= i < |s| ==> s[i] !in UnsafeChars
  }

  lemma SafeSlice(s: string, i: nat, j: nat)
    requires NoUnsafe(s) && i <= j <= |s|
    ensures NoUnsafe(s[i..j])
  {
    assert forall x :: 0 <= x < j - i ==> s[i..j][x] == s[i + x];
  }

  /** `s.rsplit('.', 1)` read as `(name, ext)`, with `ext` empty when there
      is no `.`. */
  function SplitExtension(s: string): (r: (string, string))
    ensures '.' !in r.1
    ensures '.' in s ==> s == r.0 + "." + r.1
    ensures '.' !in s ==> r == (s, "")
  {
    if '.' in s then
      var k := LastIndexOf(s, '.');
      assert s == s[..k] + "." + s[k + 1..];
      (s[..k], s[k + 1..])
    else (s, "")
  }

  /** The shortening applied to an over-long (already sanitised) name. */
  function Shorten(s: string): (r: string)
    requires NoUnsafe(s)
    ensures NoUnsafe(r)
    ensures var (stem, ext) := SplitExtension(s);
      && |r| == (if |stem| < KeptStemLength then |stem| else KeptStemLength) + (if ext == "" then 0 else 1 + |ext|)
      && StartsWith(r, Take(stem, KeptStemLength))
      && (ext != "" ==> r == Take(stem, KeptStemLength) + "." + ext)
  {
    var (stem, ext) := SplitExtension(s);
    assert NoUnsafe(stem) && NoUnsafe(ext) by {
      if '.' in s {
        SafeSlice(s, 0, |stem|);
        SafeSlice(s, |stem| + 1, |s|);
        assert s[0..|stem|] == stem && s[|stem| + 1..|s|] == ext;
      }
    }
    var kept := Take(stem, KeptStemLength);
    SafeSlice(stem, 0, |kept|);
    assert stem[0..|kept|] == kept;
    var r := kept + (if ext != "" then "." + ext else "");
    assert r[..|kept|] == kept;
    r
  }

  /** Filename sanitising: unsafe characters become `_`; a name longer than
      100 characters keeps the first 95 characters of its stem (the text
      before the last `.`) followed by `.` and the extension when that is
      non-empty, or just its first 95 characters when it has no `.`. */
  function SanitizeFilename(filename: string): (r: string)
    ensures NoUnsafe(r)
    ensures |filename| <= MaxFilenameLength ==> r == ReplaceUnsafe(filename) && |r| == |filename|
    ensures |filename| > MaxFilenameLength ==>
      var (stem, ext) := SplitExtension(ReplaceUnsafe(filename));
      && |r| == (if |stem| < KeptStemLength then |stem| else KeptStemLength) + (if ext == "" then 0 else 1 + |ext|)
      && StartsWith(r, Take(stem, KeptStemLength))
      && (ext != "" ==> r == Take(stem, KeptStemLength) + "." + ext)
  {
    var s := ReplaceUnsafe(filename);
    if |s| > MaxFilenameLength then Shorten(s) else s
  }

  /** The length limit does not bound the result: a long extension is kept
      whole, so a 101-character name can come back 101 characters long. */
  lemma LongExtensionKeepsLength()
    ensures var name := "a." + seq(99, _ => 'b');
      |name| == 101 && |SanitizeFilename(name)| == 101
  {
    var name := "a." + seq(99, _ => 'b');
    var s := ReplaceUnsafe(name);
    assert s == name;
    assert s[1] == '.';
    assert '.' !in s[2..];
    LastIndexOfUnique(s, '.', 1);
  }

  // ---------------------------------------------------------------------------
  // get_base_url_from_request and format_error_response
  // ---------------------------------------------------------------------------

  /** The parts of an incoming request the base URL is derived from;
      `url` is `None` when reading it raises. */
  datatype RequestUrl = RequestUrl(scheme: string, netloc: string)
  datatype IncomingRequest = IncomingRequest(url: Option<RequestUrl>, hostHeader: Option<string>)

  /** `https://host` iff the request scheme is exactly `https`, otherwise
      `http://host`, the host being the `Host` header or else the URL's
      network location; the empty string when the request cannot be read. */
  function GetBaseUrlFromRequest(req: IncomingRequest): (r: string)
    ensures req.url.None? ==> r == ""
    ensures req.url.Some? ==>
      var host := req.hostHeader.GetOr(req.url.value.netloc);
      && (req.url.value.scheme == "https" <==> StartsWith(r, "https://"))
      && (req.url.value.scheme == "https" ==> r == "https://" + host)
      && (req.url.value.scheme != "https" ==> r == "http://" + host)
  {
    match req.url
    case None => ""
    case Some(u) =>
      var scheme := if u.scheme == "https" then "https" else "http";
      var host := req.hostHeader.GetOr(u.netloc);
      var r := scheme + "://" + host;
      assert scheme != "https" ==> r[4] == ':';
      r
  }

  const DefaultErrorType := "api_error"
  const DefaultErrorCode := 400

  /** The error body `{message, type, code}`. A keyword argument the caller
      omits is `None` and takes its default, type "api_error" and code 400;
      a value the caller passes is kept as it is, even an empty type. */
  function FormatErrorResponse(message: string, errorType: Option<string>, code: Option<int>): (r: ErrorBody)
    ensures r.message == message
    ensures errorType.None? ==> r.errorType == "api_error"
    ensures errorType.Some? ==> r.errorType == errorType.value
    ensures code.None? ==> r.code == 400
    ensures code.Some? ==> r.code == code.value
  {
    ErrorBody(message, errorType.GetOr(DefaultErrorType), code.GetOr(DefaultErrorCode))
  }

  /** The helper and the `APIException` handler build the same body for an
      exception that carries an error code. */
  lemma FormatErrorMatchesHandler(k: ErrorClass, detail: string)
    ensures FormatErrorResponse(detail, Some(CodeOf(k)), Some(StatusOf(k))) == ApiExceptionHandler(Raise(k, detail)).body
  {
  }

  /** With both keyword defaults the helper builds the body the handler gives
      a plain 400 exception without an error code; an explicitly empty type
      is kept by the helper, where the handler falls back to "api_error". */
  lemma DefaultsMatchPlainApiError(message: string)
    ensures FormatErrorResponse(message, None, None) == ApiExceptionHandler(Api(400, message, None)).body
    ensures FormatErrorResponse(message, Some(""), None).errorType == ""
    ensures ApiExceptionHandler(Api(400, message, Some(""))).body.errorType == "api_error"
  {
  }
}

=== FILE: results.dfy ===
/** Failure-carrying values used throughout the model: a Python call that may
    raise is modelled as a function returning one of these. */
module Results {

  /** An optional value (Python's `Optional[T]`, `None` or a value). */
  datatype Option<+T> = None | Some(value: T) {

    /** The value, or `default` when absent. */
    function GetOr(default: T): T {
      match this
      case Some(v) => v
      case None => default
    }
  }

  /** The outcome of a call that either returns a value or raises `error`. */
  datatype Result<+T, +E> = Success(value: T) | Failure(error: E) {

    predicate IsFailure() {
      Failure?
    }

    function PropagateFailure<U>(): Result<U, E>
      requires Failure?
    {
      Failure(error)
    }

    function Extract(): T
      requires Success?
    {
      value
    }
  }

  /** The outcome of a call that returns nothing of interest or raises `error`. */
  datatype Outcome<+E> = Pass | Fail(error: E)
}

=== FILE: schemas.dfy ===
/** The request and response records of the API and the field constraints
    the request schemas declare (lengths, numeric ranges, defaults, the
    response-format enumeration and the base64 image validator). A request
    that breaks a constraint is refused with the names of the offending
    fields, before any service code runs. */
module Schemas {
  import opened Results
  import opened Imaging

  // ---------------------------------------------------------------------------
  // ResponseFormat
  // ---------------------------------------------------------------------------

  datatype ResponseFormat = Url | B64Json {
    /** The value on the wire. */
    function Wire(): string {
      match this
      case Url => "url"
      case B64Json => "b64_json"
    }
  }

  /** Reads a wire value; only the two enumeration values are accepted. */
  function ParseResponseFormat(s: string): (r: Option<ResponseFormat>)
    ensures r.Some? <==> s == "url" || s == "b64_json"
    ensures r.Some? ==> r.value.Wire() == s
  {
    if s == "url" then Some(Url) else if s == "b64_json" then Some(B64Json) else None
  }

  lemma ResponseFormatRoundTrip(f: ResponseFormat)
    ensures ParseResponseFormat(f.Wire()) == Some(f)
  {
  }

  // ---------------------------------------------------------------------------
  // Field bounds and defaults
  // ---------------------------------------------------------------------------

  const PromptMaxLength := 4000
  const MaxImagesPerRequest := 10
  const MinGuidanceScale: real := 1.0
  const MaxGuidanceScale: real := 10.0
  const MaxSchemaInferenceSteps := 50
  const MinVariationStrength: real := 0.1
  const MaxVariationStrength: real := 1.0

  const DefaultN := 1
  const DefaultSize := "1024x1024"
  const DefaultGuidanceScale: real := 2.5
  const DefaultInferenceSteps := 28
  const DefaultVariationStrength: real := 0.7

  /** A field of a request body: omitted, or given. */
  datatype Field<T> = Absent | Given(value: T) {
    function Or(default: T): T {
      match this
      case Absent => default
      case Given(v) => v
    }
  }

  // ---------------------------------------------------------------------------
  // Validated requests
  // ---------------------------------------------------------------------------

  /** Fields shared by the three requests. */
  datatype BaseFields = BaseFields(
    prompt: string,
    n: int,
    size: Option<string>,
    responseFormat: ResponseFormat,
    user: Option<string>
  )

  /** Generation controls shared by the three requests. */
  datatype Tuning = Tuning(guidanceScale: real, numInferenceSteps: int, seed: Option<int>)

  datatype GenerationRequest = GenerationRequest(base: BaseFields, tuning: Tuning)

  /** `image` is the base64 payload as returned by the image validator. */
  datatype EditRequest = EditRequest(base: BaseFields, image: string, tuning: Tuning)

  /** There is no list of prompts among the fields. */
  datatype VariationRequest = VariationRequest(base: BaseFields, image: string, tuning: Tuning, variationStrength: real)

  // ---------------------------------------------------------------------------
  // Request bodies as received, and their validation
  // ---------------------------------------------------------------------------

  datatype RawBase = RawBase(
    prompt: Field<string>,
    n: Field<int>,
    size: Field<Option<string>>,
    responseFormat: Field<string>,
    user: Field<Option<string>>
  )

  datatype RawTuning = RawTuning(guidanceScale: Field<real>, numInferenceSteps: Field<int>, seed: Field<Option<int>>)

  datatype RawGeneration = RawGeneration(base: RawBase, tuning: RawTuning)
  datatype RawEdit = RawEdit(base: RawBase, image: Field<string>, tuning: RawTuning)
  datatype RawVariation = RawVariation(base: RawBase, image: Field<string>, tuning: RawTuning, variationStrength: Field<real>)

  predicate PromptOk(f: Field<string>) {
    f.Given? && 1 <= |f.value| <= PromptMaxLength
  }

  predicate NOk(f: Field<int>) {
    1 <= f.Or(DefaultN) <= MaxImagesPerRequest
  }

  predicate FormatOk(f: Field<string>) {
    f.Absent? || ParseResponseFormat(f.value).Some?
  }

  predicate GuidanceOk(f: Field<real>) {
    MinGuidanceScale <= f.Or(DefaultGuidanceScale) <= MaxGuidanceScale
  }

  predicate StepsOk(f: Field<int>) {
    1 <= f.Or(DefaultInferenceSteps) <= MaxSchemaInferenceSteps
  }

  predicate StrengthOk(f: Field<real>) {
    MinVariationStrength <= f.Or(DefaultVariationStrength) <= MaxVariationStrength
  }

  /** Names of the shared fields that break their constraint, in declaration order. */
  function BaseErrors(raw: RawBase): (errors: seq<string>)
    ensures "prompt" in errors <==> !PromptOk(raw.prompt)
    ensures "n" in errors <==> !NOk(raw.n)
    ensures "response_format" in errors <==> !FormatOk(raw.responseFormat)
    ensures errors == [] <==> PromptOk(raw.prompt) && NOk(raw.n) && FormatOk(raw.responseFormat)
  {
    (if PromptOk(raw.prompt) then [] else ["prompt"])
    + (if NOk(raw.n) then [] else ["n"])
    + (if FormatOk(raw.responseFormat) then [] else ["response_format"])
  }

  function TuningErrors(raw: RawTuning): (errors: seq<string>)
    ensures "guidance_scale" in errors <==> !GuidanceOk(raw.guidanceScale)
    ensures "num_inference_steps" in errors <==> !StepsOk(raw.numInferenceSteps)
    ensures errors == [] <==> GuidanceOk(raw.guidanceScale) && StepsOk(raw.numInferenceSteps)
  {
    (if GuidanceOk(raw.guidanceScale) then [] else ["guidance_scale"])
    + (if StepsOk(raw.numInferenceSteps) then [] else ["num_inference_steps"])
  }

  function BuildBase(raw: RawBase): BaseFields
    requires BaseErrors(raw) == []
  {
    BaseFields(
      raw.prompt.value,
      raw.n.Or(DefaultN),
      raw.size.Or(Some(DefaultSize)),
      if raw.responseFormat.Given? then ParseResponseFormat(raw.responseFormat.value).value else Url,
      raw.user.Or(None))
  }

  function BuildTuning(raw: RawTuning): Tuning {
    Tuning(raw.guidanceScale.Or(DefaultGuidanceScale), raw.numInferenceSteps.Or(DefaultInferenceSteps), raw.seed.Or(None))
  }

  /** The shared fields of an accepted request: given values, or the
      declared defaults. */
  predicate BaseAccepted(raw: RawBase, b: BaseFields) {
    && 1 <= |b.prompt| <= PromptMaxLength
    && Given(b.prompt) == raw.prompt
    && 1 <= b.n <= MaxImagesPerRequest
    && b.n == raw.n.Or(DefaultN)
    && b.size == raw.size.Or(Some(DefaultSize))
    && (raw.responseFormat.Given? ==> b.responseFormat.Wire() == raw.responseFormat.value)
    && (raw.responseFormat.Absent? ==> b.responseFormat == Url)
    && b.user == raw.user.Or(None)
  }

  predicate TuningAccepted(raw: RawTuning, t: Tuning) {
    && MinGuidanceScale <= t.guidanceScale <= MaxGuidanceScale
    && t.guidanceScale == raw.guidanceScale.Or(DefaultGuidanceScale)
    && 1 <= t.numInferenceSteps <= MaxSchemaInferenceSteps
    && t.numInferenceSteps == raw.numInferenceSteps.Or(DefaultInferenceSteps)
    && t.seed == raw.seed.Or(None)
  }

  /** A generation body is accepted iff every field meets its constraint;
      the accepted request carries the given values or the defaults,
      otherwise the offending fields are named. */
  function ValidateGenerationRequest(raw: RawGeneration): (r: Result<GenerationRequest, seq<string>>)
    ensures r.Success? <==> BaseErrors(raw.base) == [] && TuningErrors(raw.tuning) == []
    ensures r.Success? ==> BaseAccepted(raw.base, r.value.base) && TuningAccepted(raw.tuning, r.value.tuning)
    ensures r.Failure? ==> r.error == BaseErrors(raw.base) + TuningErrors(raw.tuning) && r.error != []
  {
    var errors := BaseErrors(raw.base) + TuningErrors(raw.tuning);
    if errors != [] then Failure(errors)
    else Success(GenerationRequest(BuildBase(raw.base), BuildTuning(raw.tuning)))
  }

  /** A body with only a prompt gets the declared defaults. */
  lemma GenerationDefaults(prompt: string)
    requires 1 <= |prompt| <= PromptMaxLength
    ensures var r := ValidateGenerationRequest(RawGeneration(
        RawBase(Given(prompt), Absent, Absent, Absent, Absent), RawTuning(Absent, Absent, Absent)));
      && r.Success?
      && r.value.base == BaseFields(prompt, 1, Some("1024x1024"), Url, None)
      && r.value.tuning == Tuning(2.5, 28, None)
  {
  }

  // ---------------------------------------------------------------------------
  // The base64 image validator
  // ---------------------------------------------------------------------------

  const InvalidImageMessage := "Invalid base64 image format"

  /** The `image` field validator: strip a data-URL prefix, decode, check
      that the bytes parse as an image and that the image passes the
      library's integrity check; the stripped payload is what the request
      keeps. Any failure is reported with one fixed message. */
  function ValidateImageField(v: string, codec: Codec): (r: Result<string, string>)
    ensures r.Failure? ==> r.error == InvalidImageMessage
    ensures r.Success? <==>
      && StripDataUrl(v).Success?
      && codec.b64decode(StripDataUrl(v).value).Success?
      && codec.open(codec.b64decode(StripDataUrl(v).value).value).Success?
      && codec.verify(codec.open(codec.b64decode(StripDataUrl(v).value).value).value).Pass?
    ensures r.Success? ==> r.value == StripDataUrl(v).value
    ensures r.Success? && !(|v| >= 10 && v[..10] == DataUrlPrefix) ==> r.value == v
  {
    match StripDataUrl(v)
    case Failure(_) => Failure(InvalidImageMessage)
    case Success(payload) =>
      match codec.b64decode(payload)
      case Failure(_) => Failure(InvalidImageMessage)
      case Success(bytes) =>
        match codec.open(bytes)
        case Failure(_) => Failure(InvalidImageMessage)
        case Success(image) =>
          match codec.verify(image)
          case Fail(_) => Failure(InvalidImageMessage)
          case Pass => Success(payload)
  }

  function ImageErrors(f: Field<string>, codec: Codec): (errors: seq<string>)
    ensures errors == [] <==> f.Given? && ValidateImageField(f.value, codec).Success?
  {
    if f.Given? && ValidateImageField(f.value, codec).Success? then [] else ["image"]
  }

  /** An edit body is accepted iff every field meets its constraint and the
      image validator accepts the payload, which is kept stripped. */
  function ValidateEditRequest(raw: RawEdit, codec: Codec): (r: Result<EditRequest, seq<string>>)
    ensures r.Success? <==>
      BaseErrors(raw.base) == [] && ImageErrors(raw.image, codec) == [] && TuningErrors(raw.tuning) == []
    ensures r.Success? ==>
      && BaseAccepted(raw.base, r.value.base)
      && TuningAccepted(raw.tuning, r.value.tuning)
      && r.value.image == ValidateImageField(raw.image.value, codec).value
    ensures r.Failure? ==> r.error != []
  {
    var errors := BaseErrors(raw.base) + ImageErrors(raw.image, codec) + TuningErrors(raw.tuning);
    if errors != [] then Failure(errors)
    else Success(EditRequest(BuildBase(raw.base), ValidateImageField(raw.image.value, codec).value, BuildTuning(raw.tuning)))
  }

  /** A variation body is accepted iff every field meets its constraint,
      including the variation strength in `[0.1, 1.0]` (default 0.7). */
  function ValidateVariationRequest(raw: RawVariation, codec: Codec): (r: Result<VariationRequest, seq<string>>)
    ensures r.Success? <==>
      && BaseErrors(raw.base) == [] && ImageErrors(raw.image, codec) == [] && TuningErrors(raw.tuning) == []
      && StrengthOk(raw.variationStrength)
    ensures r.Success? ==>
      && BaseAccepted(raw.base, r.value.base)
      && TuningAccepted(raw.tuning, r.value.tuning)
      && r.value.image == ValidateImageField(raw.image.value, codec).value
      && MinVariationStrength <= r.value.variationStrength <= MaxVariationStrength
      && r.value.variationStrength == raw.variationStrength.Or(DefaultVariationStrength)
    ensures r.Failure? ==> r.error != []
  {
    var errors := BaseErrors(raw.base) + ImageErrors(raw.image, codec) + TuningErrors(raw.tuning)
                  + (if StrengthOk(raw.variationStrength) then [] else ["variation_strength"]);
    if errors != [] then Failure(errors)
    else Success(VariationRequest(BuildBase(raw.base), ValidateImageField(raw.image.value, codec).value,
                                  BuildTuning(raw.tuning), raw.variationStrength.Or(DefaultVariationStrength)))
  }

  // ---------------------------------------------------------------------------
  // Response records
  // ---------------------------------------------------------------------------

  /** One entry of the `data` list of a response. */
  datatype ImageData = ImageData(url: Option<string>, b64Json: Option<string>, revisedPrompt: Option<string>)

  /** `{created, data}`. */
  datatype ImageResponse = ImageResponse(created: int, data: seq<ImageData>)
}

=== FILE: text.dfy ===
/** The handful of Python `str` operations the service relies on, with the
    behaviour Python gives them: `startswith`, `in`, `split(sep)`,
    `rsplit(sep, 1)`, slicing, `replace`, `lower`, `int()` and `str()` of an
    integer. */
module Text {
  import opened Results

  /** `s.startswith(prefix)`. */
  predicate StartsWith(s: string, prefix: string) {
    |prefix| <= |s| && s[..|prefix|] == prefix
  }

  /** `s[:n]` for a non-negative `n`: at most the first `n` characters. */
  function Take(s: string, n: nat): (r: string)
    ensures |r| == if n <= |s| then n else |s|
    ensures StartsWith(s, r)
  {
    if n <= |s| then s[..n] else s
  }

  /** The position of the first `c` in `s` (`s.index(c)`). */
  function IndexOf(s: string, c: char): (k: nat)
    requires c in s
    ensures k < |s| && s[k] == c
    ensures c !in s[..k]
  {
    if s[0] == c then 0 else
      assert c in s[1..] by { assert s == [s[0]] + s[1..]; }
      1 + IndexOf(s[1..], c)
  }

  /** The position of the last `c` in `s` (`s.rindex(c)`). */
  function LastIndexOf(s: string, c: char): (k: nat)
    requires c in s
    ensures k < |s| && s[k] == c
    ensures c !in s[k + 1..]
  {
    if s[|s| - 1] == c then |s| - 1 else
      assert c in s[..|s| - 1] by { assert s == s[..|s| - 1] + [s[|s| - 1]]; }
      LastIndexOf(s[..|s| - 1], c)
  }

  /** The last occurrence is the only position holding `c` with no `c` after it. */
  lemma LastIndexOfUnique(s: string, c: char, k: nat)
    requires k < |s| && s[k] == c && c !in s[k + 1..]
    ensures LastIndexOf(s, c) == k
  {
    if k < |s| - 1 {
      assert s[|s| - 1] == s[k + 1..][|s| - 2 - k];
      var t := s[..|s| - 1];
      assert s[k + 1..] == t[k + 1..] + [s[|s| - 1]];
      LastIndexOfUnique(t, c, k);
    }
  }

  /** `s.split(c)` for a one-character separator: the pieces between
      consecutive occurrences of `c`; never empty. */
  function Split(s: string, c: char): (parts: seq<string>)
    ensures |parts| >= 1
    ensures forall i :: 0 <= i < |parts| ==> c !in parts[i]
    decreases |s|
  {
    if c !in s then [s]
    else
      var k := IndexOf(s, c);
      [s[..k]] + Split(s[k + 1..], c)
  }

  /** Joining the pieces back with the separator gives the original string:
      `c.join(s.split(c)) == s`. */
  function Join(parts: seq<string>, c: char): string
    requires |parts| >= 1
  {
    if |parts| == 1 then parts[0] else parts[0] + [c] + Join(parts[1..], c)
  }

  lemma {:induction false} SplitJoin(s: string, c: char)
    ensures Join(Split(s, c), c) == s
    decreases |s|
  {
    if c in s {
      var k := IndexOf(s, c);
      SplitJoin(s[k + 1..], c);
      assert s == s[..k] + [c] + s[k + 1..];
    }
  }

  /** The first occurrence is the only position holding `c` with no `c` before it. */
  lemma IndexOfUnique(s: string, c: char, k: nat)
    requires k < |s| && s[k] == c && c !in s[..k]
    ensures IndexOf(s, c) == k
  {
    if k > 0 {
      assert s[0] == s[..k][0];
      assert s[1..][..k - 1] == s[1..k];
      assert forall x :: x in s[1..k] ==> x in s[..k];
      IndexOfUnique(s[1..], c, k - 1);
    }
  }

  /** Splitting `a + c + b` where `a` has no `c` peels off `a` as the first piece. */
  lemma SplitAtFirst(a: string, c: char, b: string)
    requires c !in a
    ensures Split(a + [c] + b, c) == [a] + Split(b, c)
  {
    var s := a + [c] + b;
    assert s[..|a|] == a;
    IndexOfUnique(s, c, |a|);
    assert s[|a| + 1..] == b;
  }

  /** The first piece of `s.split(c)` is the text before the first `c`. */
  lemma SplitFirstPiece(s: string, c: char)
    ensures c in s ==> Split(s, c)[0] == s[..IndexOf(s, c)]
    ensures c !in s ==> Split(s, c) == [s]
  {
  }

  /** `s.replace(from, to)` for single characters. */
  function ReplaceChar(s: string, from: char, to: char): (r: string)
    ensures |r| == |s|
    ensures forall i :: 0 <= i < |s| ==> r[i] == (if s[i] == from then to else s[i])
  {
    if s == [] then []
    else [if s[0] == from then to else s[0]] + ReplaceChar(s[1..], from, to)
  }

  /** `s.lower()` restricted to ASCII letters. */
  function LowerAscii(s: string): (r: string)
    ensures |r| == |s|
    ensures forall i :: 0 <= i < |s| ==>
      r[i] == (if 'A' <= s[i] <= 'Z' then (s[i] as int + 32) as char else s[i])
  {
    if s == [] then []
    else [if 'A' <= s[0] <= 'Z' then (s[0] as int + 32) as char else s[0]] + LowerAscii(s[1..])
  }

  // ---------------------------------------------------------------------------
  // Decimal integers: Python's str(n) and int(s)
  // ---------------------------------------------------------------------------

  predicate IsDigit(c: char) {
    '0' <= c <= '9'
  }

  predicate AllDigits(s: string) {
    forall i :: 0 <= i < |s| ==> IsDigit(s[i])
  }

  function DigitChar(d: nat): (c: char)
    requires d < 10
    ensures IsDigit(c)
  {
    ('0' as int + d) as char
  }

  /** The value of a string of decimal digits, most significant first. */
  function DigitsValue(s: string): nat
    requires AllDigits(s)
  {
    if s == [] then 0
    else DigitsValue(s[..|s| - 1]) * 10 + (s[|s| - 1] as int - '0' as int)
  }

  /** `str(n)` for a non-negative `n`: no sign, no leading zero. */
  function NatToString(n: nat): (s: string)
    ensures |s| >= 1 && AllDigits(s)
  {
    if n < 10 then [DigitChar(n)] else NatToString(n / 10) + [DigitChar(n % 10)]
  }

  /** `str(n)` for any integer. */
  function IntToString(n: int): string {
    if n < 0 then "-" + NatToString(-n) else NatToString(n)
  }

  lemma {:induction false} NatToStringValue(n: nat)
    ensures DigitsValue(NatToString(n)) == n
  {
    if n >= 10 {
      var s := NatToString(n);
      NatToStringValue(n / 10);
      assert s[..|s| - 1] == NatToString(n / 10);
    }
  }

  /** The characters Python's `int()` strips around its argument (the ASCII ones). */
  predicate IsSpace(c: char) {
    c == ' ' || c == '\t' || c == '\n' || c == '\r' || c == '\U{000B}' || c == '\U{000C}'
  }

  function TrimLeft(s: string): (r: string)
    ensures |r| <= |s|
  {
    if |s| > 0 && IsSpace(s[0]) then TrimLeft(s[1..]) else s
  }

  function TrimRight(s: string): (r: string)
    ensures |r| <= |s|
  {
    if |s| > 0 && IsSpace(s[|s| - 1]) then TrimRight(s[..|s| - 1]) else s
  }

  /** The digit part accepted by `int()`: digits, with single underscores
      allowed between two digits. */
  predicate DigitGroups(s: string) {
    && |s| >= 1
    && IsDigit(s[0])
    && IsDigit(s[|s| - 1])
    && (forall i :: 0 <= i < |s| ==> IsDigit(s[i]) || s[i] == '_')
    && (forall i :: 0 <= i < |s| - 1 ==> s[i] == '_' ==> s[i + 1] != '_')
  }

  function DropUnderscores(s: string): (r: string)
    requires forall i :: 0 <= i < |s| ==> IsDigit(s[i]) || s[i] == '_'
    ensures AllDigits(r)
  {
    if s == [] then []
    else if s[0] == '_' then DropUnderscores(s[1..])
    else [s[0]] + DropUnderscores(s[1..])
  }

  /** Python's `int(s)` in base 10 over ASCII text: surrounding white space is
      ignored, one optional sign, then digit groups; anything else raises
      `ValueError` (here `None`). */
  function ParseInt(s: string): Option<int> {
    var t := TrimRight(TrimLeft(s));
    if |t| >= 1 && (t[0] == '+' || t[0] == '-') then
      var body := t[1..];
      if DigitGroups(body) then
        var v: int := DigitsValue(DropUnderscores(body));
        Some(if t[0] == '-' then -v else v)
      else None
    else if DigitGroups(t) then Some(DigitsValue(DropUnderscores(t)))
    else None
  }

  lemma DropUnderscoresOfDigits(s: string)
    requires AllDigits(s)
    ensures DropUnderscores(s) == s
  {
  }

  /** `int(str(n)) == n`: the decimal rendering of an integer reads back as
      that integer. */
  lemma IntToStringRoundTrip(n: int)
    ensures ParseInt(IntToString(n)) == Some(n)
  {
    var d := NatToString(if n < 0 then -n else n);
    NatToStringValue(if n < 0 then -n else n);
    DropUnderscoresOfDigits(d);
    var s := IntToString(n);
    assert !IsSpace(s[0]) && !IsSpace(s[|s| - 1]);
    assert TrimLeft(s) == s;
    assert TrimRight(s) == s;
    if n < 0 {
      assert s[1..] == d;
    }
  }

  /** `str(n)` of a non-negative integer never holds the letter `c` of a
      non-digit. */
  lemma NatToStringHasNo(n: nat, c: char)
    requires !IsDigit(c)
    ensures c !in NatToString(n)
  {
  }
}
